=== FILE: README.md ===
# Word Replacer, modelled in Dafny

Word Replacer is a browser extension that rewrites words and phrases on web
pages. The user keeps a list of rules, each a `find` text and a `replace`
text. A content script walks the page's text nodes and replaces every
whole-word, case-insensitive occurrence of each `find`. The replacement is
re-styled after the occurrence it replaces: all capitals, a leading capital,
or lower case.

The model covers the core of that behaviour:

- `content.js`: `escapeRegExp`, `smartCapitalize` and `performReplacements`.
  This includes the regular expression `\bFIND\b` with flags `gi` and the
  global `String.prototype.replace` that uses it. They are written out as a
  scanner and given a declarative meaning: the leftmost non-overlapping
  occurrences are substituted.
- `options.js`: `parseFindString`, `handleAdd` with `handleUpdate`,
  `handleRemove`, and the choice of tabs to notify.
- `popup.js`: `saveRule`, `deleteRule`, and its own choice of tabs to notify.

Modules, one file each:

| file | module | what it holds |
|---|---|---|
| wrappers.dfy | Wrappers | `Option`, `Result` |
| strings.dfy | Strings | ASCII case mapping, ECMAScript `trim`, `startsWith`, `split(',')` and `join(',')` |
| escape.dfy | Escape | `escapeRegExp`, and the literal the engine reads back from its output |
| capitalize.dfy | Capitalize | `smartCapitalize` |
| selection.dfy | Selection | leftmost non-overlapping choice of matches, for any match predicate |
| matcher.dfy | Matcher | `\b`, case-insensitive comparison, the global replace and its meaning |
| content.dfy | Content | the tree walker's filter, the per-node rule loop, the two passes of `performReplacements` |
| rules.dfy | Rules | the rule record, shared field checks, append / overwrite / `splice(i, 1)` |
| tabs.dfy | Tabs | tabs and browser-internal urls |
| options.dfy | Options | `parseFindString`, the options page's save, its notify filter |
| popup.dfy | Popup | the popup's save and its notify loop, each compared with the options page |
| examples.dfy | Examples | the concrete cases the extension's tests describe |

The model follows the code wherever the code and its tests disagree.

- `smartCapitalize('hElLo', 'world')` is `'world'`, not the `'World'` the
  test at `__tests__/wordReplacement.test.js:18` expects. The original is
  not all capitals and does not start with `[A-Z]`, so content.js:61
  lower-cases the replacement (`Capitalize.ExampleLowerCase`).
- The two save paths differ, and both are modelled as written.
  - The popup has no "at least one item" check, so it stores a find of `,`
    (`Popup.CommaFindDiverges`).
  - The popup messages a tab whose url is empty. A tab with no url makes
    `tab.url.startsWith` throw, which ends the popup's loop
    (`Popup.EmptyUrlDiverges`, `Popup.NotifyTabsStopsAtMissingUrl`).

## Model

| member | source | states |
|---|---|---|
| Escape.EscapeRegExp | content.js:31-34 | the escaped text is one character longer per metacharacter, and a text without metacharacters is unchanged |
| Escape.LiteralOfEscape | content.js:31-34 | the escaped text reads as the literal `find`, character for character |
| Escape.EscapeInjective | content.js:31-34 | different find texts never give the same pattern |
| Escape.LiteralOf | content.js:122 | how the engine reads the escaped pattern: a backslash before a metacharacter stands for that character, any other non-metacharacter stands for itself, and anything else is not a plain literal |
| Escape.EscapeAppend | content.js:33 | escaping works character by character, so it distributes over concatenation |
| Escape.EscapeWithin | content.js:33 | a metacharacter inside a text gets exactly one backslash, and the rest is escaped as before |
| Escape.EscapeBetweenWords | __tests__/wordReplacement.test.js:24-26 | one metacharacter between two plain words gets a backslash, as in `test*test` to `test\*test` |
| Escape.EscapeExamplePlain | __tests__/wordReplacement.test.js:30 | `test` is unchanged |
| Escape.EscapeExampleStars | __tests__/edgeCases.test.js:103-106 | `***` becomes `\*\*\*` |
| Capitalize.SmartCapitalize | content.js:42-63 | the result spells the replacement up to letter case and has its length; it is upper-cased when the original equals its upper-casing, capitalised when the original starts with A-Z, lower-cased otherwise |
| Capitalize.IsAllCaps | content.js:44 | `originalWord === originalWord.toUpperCase()`: the original is unchanged by upper-casing |
| Capitalize.StartsWithCapital | content.js:43 | `/^[A-Z]/`: the original is non-empty and its first character is an ASCII capital |
| Capitalize.CapitalizeFirst | content.js:52-56 | `charAt(0).toUpperCase() + slice(1).toLowerCase()` keeps the length and the letters up to case, and leaves no lower-case first letter and no capital after it |
| Capitalize.CaseStyleDetermines | content.js:46-62 | two spellings of the same letters with one case style are equal, so the style pins the result down |
| Capitalize.AllCapsGivesUpper | content.js:44-47 | an all-capitals original gives `replacement.toUpperCase()` |
| Capitalize.LeadingCapitalGivesCapitalized | content.js:48-58 | a leading capital, in Title Case or mixed case, gives the first character upper-cased and the rest lower-cased |
| Capitalize.OtherwiseGivesLower | content.js:59-62 | any other original gives `replacement.toLowerCase()` |
| Capitalize.NoLowerIsAllCaps | content.js:44 | an original with no lower-case letter, even one with no letters at all, counts as all capitals |
| Capitalize.SmartCapitalizeIdempotent | content.js:42-63 | re-styling a re-styled replacement after the same original changes nothing |
| Capitalize.ExampleAllCaps | __tests__/edgeCases.test.js:72-77 | `HELLO` gives `WORLD`, and `HELLO` followed by an emoji gives `HI` |
| Capitalize.ExampleLeadingCapital | content.js:48-58 | `Hello` gives `World`, `Hello World` gives `Goodbye earth` and `Café` gives `Coffee` |
| Capitalize.ExampleLowerCase | content.js:59-62 | `hello`, `hElLo`, `café` and `hello` with an emoji all give the lower-cased replacement; an empty replacement stays empty |
| Strings.Trim | options.js:177 | `trim()` leaves no whitespace at either end, keeps only characters of the input, and is empty exactly when the input is all whitespace |
| Strings.IsJsWhitespace | options.js:74 | the characters `trim()` removes: ECMAScript's WhiteSpace and LineTerminator code points |
| Strings.Upper | content.js:44-47 | `toUpperCase()` maps each character on its own and keeps the length; ASCII lower-case letters become capitals and every other character is kept |
| Strings.Lower | content.js:61 | `toLowerCase()` maps each character on its own and keeps the length; ASCII capitals become lower-case and every other character is kept |
| Strings.StartsWith | options.js:130 | `s.startsWith(prefix)`: the prefix is no longer than `s` and equals its first characters |
| Strings.TrimPadded | options.js:74 | trimming removes exactly the surrounding whitespace and keeps the inner text |
| Strings.TrimIdempotent | options.js:74 | trimming twice is trimming once |
| Strings.SplitOnComma | options.js:74 | `split(',')` yields at least one piece, and no piece holds a comma |
| Strings.JoinSplit | options.js:74 | joining the pieces with commas gives the text back |
| Strings.SplitJoin | options.js:74 | splitting a comma-join of comma-free pieces gives the pieces back |
| Strings.SplitConcat | options.js:74 | a comma cuts the text into two independently split halves |
| Selection.GreedyIsLeftmost | content.js:126 | the left-to-right scan reports non-overlapping matches that cover every match in range |
| Selection.SelectionUnique | content.js:126 | a global search has exactly one such outcome |
| Selection.FirstChosenIsFirstMatch | content.js:126 | no match comes before the first reported one |
| Matcher.IsWordChar | content.js:122 | `\w` of a regular expression without the `u` flag: `[A-Za-z0-9_]` |
| Matcher.IsBoundary | content.js:122 | `\b` holds between a word character and a non-word one; a position outside the text counts as non-word |
| Matcher.MatchAt | content.js:122 | `\bFIND\b` with the `i` flag matches at a position when both ends are boundaries and the text between equals `find` ignoring case |
| Matcher.HasMatchFrom | content.js:125 | some match of the pattern starts at or after the given position |
| Matcher.HasMatch | content.js:125 | `findRegex.test(currentText)`: the pattern matches somewhere in the text |
| Matcher.Restyler | content.js:126-130 | the replace callback: each matched text is replaced by the replacement re-styled after it |
| Matcher.ReplaceFrom | content.js:126-130 | the global replace as a scan: at a match, the callback's text for it and a resume after the match; elsewhere one copied character |
| Matcher.MatchesIgnoringCaseIff | content.js:122 | the `i` flag's comparison of a text with `find` agrees with comparing their `toLowerCase()` forms |
| Matcher.ReplaceFromNoMatch | content.js:125-126 | where no match starts, the global replace copies the text unchanged |
| Matcher.ReplaceAll | content.js:122-130 | a text with no match is left as it is |
| Matcher.ReplaceFromIsSubstitute | content.js:126-130 | the scanner's output is the text with the scanned positions substituted |
| Matcher.ReplaceAllMeaning | content.js:122-130 | one rule's replacement is the text with its unique leftmost, non-overlapping, word-bounded, case-insensitive occurrences replaced, each by the replacement re-styled after that occurrence |
| Matcher.MatchSetExists | content.js:122-126 | such a set of occurrences always exists |
| Matcher.WholeTextReplaced | content.js:122-130 | a text that is the find text up to case, with word characters at both ends, becomes the re-styled replacement |
| Content.RunRule | content.js:122-131 | a rule marks the node changed exactly when its pattern matches, and a rule that does not match leaves the text alone |
| Content.SkipTags | content.js:82 | the eight tag names whose text is never rewritten |
| Content.IsEditable | content.js:84 | an element is editable exactly when its `contenteditable` attribute is `"true"` or empty |
| Content.IsExcluded | content.js:82-95 | an ancestor rejects the text node when its upper-cased tag name is one of the eight skipped tags, or it is editable |
| Content.AcceptNode | content.js:91-106 | the walker accepts a text node exactly when no ancestor below `document.body` is excluded and its text is not all whitespace |
| Content.ApplyRules | content.js:118-132 | a node no rule matched keeps its text |
| Content.ChangedIffSomeRuleMatched | content.js:118-134 | a node is changed exactly when some rule matched the text the earlier rules left |
| Content.ApplyRulesAppend | content.js:118-132 | the rules run in order, each on the text the earlier ones produced |
| Content.ApplyOneRule | content.js:118-132 | a single rule is one global replacement, changing the node exactly when it matches |
| Content.ProcessLeaf | content.js:91-137 | a rejected node is untouched, and an accepted one gets the rules' output |
| Content.VisitNode | content.js:115-137 | a node yields new text exactly when the walker accepts it and some rule matched, and the text is the rules' output |
| Content.QueueWrites | content.js:110-138 | the first pass queues writes in walk order, one for exactly each accepted node that some rule changed, each carrying that node's new text |
| Content.CommitWrites | content.js:142-147 | the second pass gives each queued node its new text and leaves every other node alone |
| Content.PerformReplacements | content.js:70-148 | with no rules or no node nothing happens; otherwise every text node ends as ProcessLeaf describes |
| Rules.ValidateFields | options.js:177-188 | the trimmed fields pass exactly when both are non-empty and they differ, and the rule that passes is well formed; otherwise the first failing check names the error |
| Rules.Append | options.js:207-217 | an addition is refused exactly when some find equals it ignoring case; otherwise the rule is pushed at the end |
| Rules.FindExists | options.js:207-210 | `rules.some(item => item.find.toLowerCase() === findValue.toLowerCase())`: some rule's find equals the new one ignoring case |
| Rules.Overwrite | options.js:150 | an edit replaces the rule at its index and leaves every other rule in place; an index one past the end appends the rule |
| Rules.StaleEditLosesRule | options.js:94-95 | after Edit and then Remove on the same row, Save overwrites the rule that moved into that row, which is lost |
| Rules.StaleEditDuplicates | popup.js:82-83 | after Edit and then Remove on the last row, Save appends past the end with no duplicate check, so two finds can be equal ignoring case |
| Rules.Splice | options.js:247 | `splice(i, 1)` removes the rule at the effective index, if any, and keeps the others in order |
| Rules.SpliceStart | options.js:247 | where `splice` starts: a negative index counts from the end and is clamped at 0, and an index past the end is clamped to the length |
| Rules.SpliceReinsert | options.js:247 | putting the removed rule back at its index restores the list |
| Rules.SpliceElement | popup.js:146 | each surviving rule is the one at the same index, or one further on past the removal point |
| Rules.SplicePreservesNoDuplicates | options.js:240-247 | removing a rule keeps finds unique ignoring case |
| Rules.SplicePreservesWellFormed | popup.js:143-146 | removing a rule keeps every remaining rule well formed |
| Rules.AppendPreservesNoDuplicates | options.js:207-217 | additions keep finds unique ignoring case |
| Rules.StorePreservesWellFormed | options.js:145-150 | appending or overwriting with a validated rule keeps every rule well formed |
| Rules.OverwritePreservesNoDuplicates | popup.js:117-120 | an edit keeps finds unique when no other rule shares the new find |
| Rules.OverwriteCanDuplicate | popup.js:117-120 | edits skip the duplicate check, so an edit can store two finds that are equal ignoring case |
| Options.CleanPieces | options.js:74 | trimming the pieces and dropping the empty ones keeps no more pieces than given, each non-empty and unpadded, and adds no comma |
| Options.CleanPiecesAppend | options.js:74 | cleaning works piece by piece, so it distributes over concatenation |
| Options.CleanPiecesEmptyIff | options.js:74 | cleaning drops everything exactly when every piece is all whitespace |
| Options.ParseFindString | options.js:73-75 | every item is non-empty, unpadded and comma-free, and there are no more items than comma pieces |
| Options.ParseFindStringEmptyIff | options.js:191-192 | the field yields no items exactly when it holds only commas and whitespace |
| Options.ParseFindStringConcat | options.js:74 | a comma cuts the field into two independently parsed halves |
| Options.ParseFindStringNoComma | options.js:74 | a comma-free field is one item, its trimmed text, unless that is empty |
| Options.ParseFindStringJoin | options.js:74 | parsing a comma-join of clean items gives the items back |
| Options.ParseOneItem | __tests__/edgeCases.test.js:35-53 | one padded item parses to itself, inner whitespace kept |
| Options.ParseTwoItems | __tests__/wordReplacement.test.js:36-40 | two padded words around a comma parse to the two words |
| Options.ParseSkipsBlankPiece | __tests__/wordReplacement.test.js:44 | a blank piece between two commas adds nothing |
| Options.ParseExampleNothing | __tests__/edgeCases.test.js:81-85 | the empty field gives no items |
| Options.ParseExampleEmpty | options.js:191-195 | `,,` gives no items |
| Options.CheckFindItems | options.js:190-195 | the find passes exactly when it holds something besides commas and whitespace |
| Options.Store | options.js:197-217 | an edit overwrites its row, or appends when the index is one past the end; an addition is refused only for a duplicate find, and is appended otherwise |
| Options.HandleAdd | options.js:176-237 | the save succeeds exactly when the fields are filled, differ, name at least one item and, when adding, the find is new; each failure gives its own message, in the source's order; success stores the trimmed rule appended or overwritten |
| Options.HandleAddPreservesInvariants | options.js:145-150 | what the options page stores is well formed, and additions keep finds unique ignoring case |
| Options.NotifyTargets | options.js:128-132 | exactly the tabs with a non-empty url that is not a `chrome://` or `chrome-extension://` page are messaged |
| Options.ShouldNotify | options.js:130 | a tab is told when its url is present, non-empty and not a browser page |
| Tabs.IsBrowserPage | options.js:130 | a url is a browser page when it starts with `chrome://` or `chrome-extension://` |
| Options.NotifyTargetsAppend | options.js:128 | tabs are judged one at a time, in the order reported |
| Options.NotifyExample | options.js:130 | of an ordinary page, a settings page, a tab with no url, an empty url and an extension page, only the ordinary page is messaged |
| Popup.SaveRule | popup.js:100-130 | the save succeeds exactly when the fields are filled, differ and, when adding, the find is new; success stores the trimmed rule appended or overwritten |
| Popup.SaveRuleAgreesWithHandleAdd | popup.js:100-130 | the popup and the options page store the same list whenever the find names at least one item |
| Popup.CommaFindDiverges | popup.js:104-112 | a find of `,` is stored by the popup but refused by the options page |
| Popup.SaveRulePreservesInvariants | popup.js:117-129 | what the popup stores is well formed, and additions keep finds unique ignoring case |
| Popup.NotifyTabs | popup.js:162-170 | the loop stops exactly when some tab has no url; only tabs that are not browser pages are messaged, and when no tab lacks a url, all of them are; no more tabs are messaged than there are |
| Popup.PopupNotifies | popup.js:165 | the popup tells a tab whose url is not a browser page; an empty url passes |
| Popup.NotifyTabsStopsAtMissingUrl | popup.js:164-165 | a tab without a url ends the loop, and no later tab is messaged |
| Popup.NotifyTabsAppend | popup.js:164-168 | while every tab has a url, the loop goes tab by tab in the reported order: the tabs messaged for `a + b` are those for `a` followed by those for `b`, each once, empty urls included |
| Popup.NotifyTabsAgreesWithOptions | popup.js:164-168 | when every tab has a non-empty url, the popup messages the same tabs as the options page, in the same order |
| Popup.EmptyUrlDiverges | popup.js:165 | a tab with an empty url is messaged by the popup but skipped by the options page |
| Examples.ReplaceHelloThere | content.js:122-130 | the rule `hello` to `hi` turns `hello there` into `hi there` |
| Examples.PhraseTwiceMatchSet | __tests__/domManipulation.test.js:205-215 | a phrase written twice with a space between is matched twice |
| Examples.SubstituteTwo | content.js:126-130 | substituting two spans copies the text around them and puts the callback's text for each span in its place |
| Examples.PhraseTwiceReplaced | __tests__/domManipulation.test.js:205-215 | both copies of a phrase written twice are replaced, each by the replacement styled after that copy |
| Examples.TwoMatchesReplaced | __tests__/domManipulation.test.js:205-215 | `hello world hello world` becomes `goodbye earth goodbye earth` |
| Examples.TwoCover | content.js:126 | two adjacent matches are the search's outcome exactly when no match comes before the first |
| Examples.LowerCaseWholeText | __tests__/domManipulation.test.js:191-202 | `hello world` becomes `goodbye earth` |
| Examples.AllCapsWholeText | __tests__/wordReplacement.test.js:6 | the text `HELLO` under the rule `hello` to `world` becomes `WORLD` |
| Examples.LeadingCapitalWholeText | __tests__/wordReplacement.test.js:10 | the text `Hello` becomes `World` |
| Examples.ExcludedAncestorUntouched | content.js:94-97 | text below a skipped tag or an editable element is never changed |
| Examples.ScriptIsExcluded | content.js:82-95 | tag names are compared upper-cased, so `script` is skipped, and so is an element whose `contenteditable` is empty; `p` and `contenteditable="false"` are not |
| Examples.ParagraphRewritten | __tests__/domManipulation.test.js:187-202 | a paragraph's `hello world` is rewritten to `goodbye earth` |

## Left out

- Chrome storage, messaging and tab queries are not modelled. The rule list read from storage and the tabs reported by the query are parameters, and the result is the list written back or the tabs messaged. The callbacks and their ordering are not modelled.
- Content-script startup, the `MutationObserver`, `fetchReplacements` and the storage-change listener (content.js:9-24 and 150-222) are not modelled. They decide when `performReplacements` runs, not what it does.
- Storage keys are not modelled. content.js reads the key `replacements`, while both settings pages write `rules`, so rules saved in the UI never reach the content script as written.
- `background.js` is not part of this model.
- Rendering, `escapeHTML`, status messages, form show/hide and focus are UI only.
- After `splice`, the removal message reads `removedItem.find` (options.js:247-253, popup.js:146-150). For an index past the end that is a TypeError inside the callback, after the list was already computed. The model gives the list `splice` leaves and does not model the error.
- `null` or `undefined` inputs are not modelled: a Dafny string always exists. The source itself would throw on a missing replacement where it is first used (content.js:47-61) or on a missing find field (options.js:74).
- The 500 ms `setTimeout` before `handleUpdate` notifies tabs is a delay only.
- Content.PerformReplacements: does not model the DOM itself. A subtree is its text nodes in walk order, each with its ancestors up to `document.body`. A rejected ancestor rejects all text below it, and that is how the model states it.
- Strings.Upper: case mapping and the regular expression's `i` flag cover ASCII letters only. JavaScript maps other letters too (`é` to `É`), and the model treats them as uncased. So Capitalize.SmartCapitalize treats an original with lower-case letters but no ASCII letters as all capitals: for `é`, or a Greek or Cyrillic lower-case word, the model upper-cases the replacement (`é` with `x` gives `X`), while JavaScript finds `'é' !== 'É'` at content.js:44 and no `/^[A-Z]/` match at content.js:43, so it lower-cases it (`x`).
- Matcher.IsWordChar: `\w` and `\b` are the non-Unicode ASCII classes, as the source's pattern has no `u` flag.
- Content.UsableRules: a rule with an empty `find` is not modelled. The settings pages never store one, and the empty pattern `\b\b` has its own matching behaviour.
- Rules.Overwrite: requires an edit index from 0 to the length, and so do Options.Store, Options.HandleAdd and Popup.SaveRule in edit mode. The index is kept in the form (options.js:94-95, popup.js:82-83), and removing rows does not reset it (options.js:240-258, popup.js:143-154). So Edit, then Remove on the same or an earlier row, then Save reaches an index equal to the length: the model then appends, as `rules[index] = rule` does (options.js:150, popup.js:120). Edit and then removing two or more rows reaches an index past the length. There JavaScript leaves holes in the array, and that is not modelled. A `NaN` or negative index never comes from a rendered row and is not modelled either. It would set a property that is not an array index and that storage does not keep.
- Rules.Splice: an index that is `NaN` is not modelled. `splice` treats it as 0, and callers pass the integer that the index was parsed to.

=== FILE: capitalize.dfy ===
/**
 `smartCapitalize` from content.js: gives the replacement text the letter
 case style of the text it replaces (all capitals, a leading capital, or
 lower case).
 */
module Capitalize {
  import opened Strings

  /** No lower-case letter occurs: the text reads as all capitals. */
  predicate IsUpperCased(s: string) {
    forall k :: 0 <= k < |s| ==> !IsAsciiLower(s[k])
  }

  /** No upper-case letter occurs. */
  predicate IsLowerCased(s: string) {
    forall k :: 0 <= k < |s| ==> !IsAsciiUpper(s[k])
  }

  /** The first character is not a lower-case letter and no later one is an upper-case letter. */
  predicate IsCapitalized(s: string) {
    (s == [] || !IsAsciiLower(s[0]))
    && forall k :: 1 <= k < |s| ==> !IsAsciiUpper(s[k])
  }

  /** `originalWord === originalWord.toUpperCase()` (content.js:44). */
  predicate IsAllCaps(originalWord: string) {
    originalWord == Upper(originalWord)
  }

  /** `/^[A-Z]/.test(originalWord)` (content.js:43): an ASCII capital comes first. */
  predicate StartsWithCapital(originalWord: string) {
    |originalWord| > 0 && IsAsciiUpper(originalWord[0])
  }

  /** `w.charAt(0).toUpperCase() + w.slice(1).toLowerCase()`; the empty string stays empty. */
  function CapitalizeFirst(w: string): (r: string)
    ensures |r| == |w| && IsCapitalized(r) && SameIgnoringCase(r, w)
  {
    if w == [] then [] else [UpperChar(w[0])] + Lower(w[1..])
  }

  /**
   The three-way casing rule. content.js:50-58 further distinguishes a
   Title-Case original from a mixed-case one, but both arms build the same
   text, so one expression stands for both.

   The contract does not say how the result is built: it says the result
   spells the replacement (up to letter case), has the same length, and is
   styled after the original. Lemma CaseStyleDetermines shows that these
   facts pin the result down.
   */
  function SmartCapitalize(originalWord: string, replacementWord: string): (r: string)
    ensures |r| == |replacementWord|
    ensures SameIgnoringCase(r, replacementWord)
    ensures IsAllCaps(originalWord) ==> IsUpperCased(r)
    ensures !IsAllCaps(originalWord) && StartsWithCapital(originalWord) ==> IsCapitalized(r)
    ensures !IsAllCaps(originalWord) && !StartsWithCapital(originalWord) ==> IsLowerCased(r)
  {
    if IsAllCaps(originalWord) then Upper(replacementWord)
    else if StartsWithCapital(originalWord) then CapitalizeFirst(replacementWord)
    else Lower(replacementWord)
  }

  /**
   Two spellings of the same letters that share a case style are the same
   string: the style named in SmartCapitalize's contract determines its
   result.
   */
  lemma CaseStyleDetermines(x: string, y: string)
    requires SameIgnoringCase(x, y)
    requires (IsUpperCased(x) && IsUpperCased(y))
             || (IsLowerCased(x) && IsLowerCased(y))
             || (IsCapitalized(x) && IsCapitalized(y))
    ensures x == y
  {
    assert |x| == |Lower(x)| == |Lower(y)| == |y|;
    forall k | 0 <= k < |x|
      ensures x[k] == y[k]
    {
      assert LowerChar(x[k]) == Lower(x)[k] == Lower(y)[k] == LowerChar(y[k]);
    }
  }

  /** The all-capitals style yields the upper-cased replacement. */
  lemma AllCapsGivesUpper(originalWord: string, replacementWord: string)
    requires IsAllCaps(originalWord)
    ensures SmartCapitalize(originalWord, replacementWord) == Upper(replacementWord)
  {
    var r := SmartCapitalize(originalWord, replacementWord);
    var u := Upper(replacementWord);
    assert SameIgnoringCase(u, replacementWord) by {
      assert forall k :: 0 <= k < |u| ==> LowerChar(u[k]) == LowerChar(replacementWord[k]);
    }
    CaseStyleDetermines(r, u);
  }

  /**
   A non-all-capitals original that starts with a capital yields the
   replacement with its first character upper-cased and the rest
   lower-cased, whether the original is Title Case or mixed case.
   */
  lemma LeadingCapitalGivesCapitalized(originalWord: string, replacementWord: string)
    requires !IsAllCaps(originalWord) && StartsWithCapital(originalWord)
    ensures SmartCapitalize(originalWord, replacementWord) == CapitalizeFirst(replacementWord)
  {
    var r := SmartCapitalize(originalWord, replacementWord);
    var c := CapitalizeFirst(replacementWord);
    if replacementWord != [] {
      assert SameIgnoringCase(c, replacementWord) by {
        assert forall k :: 0 <= k < |c| ==> LowerChar(c[k]) == LowerChar(replacementWord[k]);
      }
      CaseStyleDetermines(r, c);
    }
  }

  /** Any other original yields the lower-cased replacement. */
  lemma OtherwiseGivesLower(originalWord: string, replacementWord: string)
    requires !IsAllCaps(originalWord) && !StartsWithCapital(originalWord)
    ensures SmartCapitalize(originalWord, replacementWord) == Lower(replacementWord)
  {
    var r := SmartCapitalize(originalWord, replacementWord);
    var l := Lower(replacementWord);
    assert SameIgnoringCase(l, replacementWord) by {
      assert forall k :: 0 <= k < |l| ==> LowerChar(l[k]) == LowerChar(replacementWord[k]);
    }
    CaseStyleDetermines(r, l);
  }

  /** An original with no lower-case letter at all, including one with no letters, counts as all capitals. */
  lemma NoLowerIsAllCaps(originalWord: string)
    requires forall k :: 0 <= k < |originalWord| ==> !IsAsciiLower(originalWord[k])
    ensures IsAllCaps(originalWord)
  {
    UpperFixedIffNoLower(originalWord);
  }

  /** Re-styling an already re-styled replacement after the same original changes nothing. */
  lemma SmartCapitalizeIdempotent(originalWord: string, replacementWord: string)
    ensures SmartCapitalize(originalWord, SmartCapitalize(originalWord, replacementWord))
            == SmartCapitalize(originalWord, replacementWord)
  {
    var once := SmartCapitalize(originalWord, replacementWord);
    var twice := SmartCapitalize(originalWord, once);
    CaseStyleDetermines(twice, once);
  }

  // The outcomes the extension's tests name, as content.js computes them.

  lemma ExampleAllCaps()
    ensures SmartCapitalize("HELLO", "world") == "WORLD"
    ensures SmartCapitalize("HELLO \U{1F60A}", "hi") == "HI"
  {
    NoLowerIsAllCaps("HELLO");
    NoLowerIsAllCaps("HELLO \U{1F60A}");
  }

  /**
   A leading capital gives a capitalised replacement, whether the original
   is one word, two capitalised words or ends in a non-ASCII letter.
   */
  lemma ExampleLeadingCapital()
    ensures SmartCapitalize("Hello", "world") == "World"
    ensures SmartCapitalize("Hello World", "goodbye earth") == "Goodbye earth"
    ensures SmartCapitalize("Caf\U{E9}", "coffee") == "Coffee"
  {
    assert Upper("Hello")[1] != "Hello"[1];
    assert Upper("Hello World")[1] != "Hello World"[1];
    assert Upper("Caf\U{E9}")[1] != "Caf\U{E9}"[1];
    var w, g, c := "world", "goodbye earth", "coffee";
    assert w[1..] == "orld" && Lower("orld") == "orld";
    assert g[1..] == "oodbye earth" && Lower("oodbye earth") == "oodbye earth";
    assert c[1..] == "offee" && Lower("offee") == "offee";
    assert CapitalizeFirst(w) == "World";
    assert CapitalizeFirst(g) == "Goodbye earth";
    assert CapitalizeFirst(c) == "Coffee";
  }

  lemma ExampleLowerCase()
    ensures SmartCapitalize("hello", "world") == "world"
    ensures SmartCapitalize("hElLo", "world") == "world"
    ensures SmartCapitalize("hello \U{1F60A}", "hi") == "hi"
    ensures SmartCapitalize("caf\U{E9}", "coffee") == "coffee"
    ensures SmartCapitalize("hello", "") == ""
  {
    assert Upper("hello")[0] != "hello"[0];
    assert Upper("hElLo")[0] != "hElLo"[0];
    assert Upper("hello \U{1F60A}")[0] != "hello \U{1F60A}"[0];
    assert Upper("caf\U{E9}")[0] != "caf\U{E9}"[0];
    assert Lower("world") == "world";
    assert Lower("hi") == "hi";
    assert Lower("coffee") == "coffee";
  }
}

=== FILE: content.dfy ===
/**
 `performReplacements` from content.js: walks the text nodes below a DOM
 node, skips those inside excluded or editable elements and those that are
 only whitespace, runs every rule over each remaining node's text, and
 writes the changed texts back once the walk is over.

 A DOM subtree is modelled by its text nodes in document order, each with
 the chain of elements above it up to (not including) `document.body`.
 */
module Content {
  import opened Wrappers
  import opened Strings
  import opened Rules
  import opened Matcher

  /** An element on the path from a text node up to `document.body`. */
  datatype Element = Element(nodeName: string, contentEditable: Option<string>)

  /** A text node: its ancestors, nearest first, and its `nodeValue`. */
  datatype TextLeaf = TextLeaf(ancestors: seq<Element>, nodeValue: string)

  /** The text of one node after the rules ran, and whether any rule matched it. */
  datatype NodeText = NodeText(text: string, changed: bool)

  /** A write the first pass queues: the node's position in the walk and its new text. */
  datatype PendingWrite = PendingWrite(index: nat, newValue: string)

  /** The tag names whose text is never touched (content.js:82). */
  const SkipTags: set<string> := {"SCRIPT", "STYLE", "TEXTAREA", "INPUT", "SELECT", "CANVAS", "CODE", "PRE"}

  /** The selector `[contenteditable="true"], [contenteditable=""]` (content.js:84). */
  predicate IsEditable(e: Element) {
    e.contentEditable == Some("true") || e.contentEditable == Some([])
  }

  /** An ancestor that makes the walker reject the text node (content.js:95). */
  predicate IsExcluded(e: Element) {
    Upper(e.nodeName) in SkipTags || IsEditable(e)
  }

  /** The walker's `acceptNode` filter (content.js:91-106). */
  predicate AcceptNode(leaf: TextLeaf) {
    (forall k :: 0 <= k < |leaf.ancestors| ==> !IsExcluded(leaf.ancestors[k]))
    && Trim(leaf.nodeValue) != []
  }

  /** Rules the engine can run: each find is non-empty. */
  predicate UsableRules(rules: seq<Rule>) {
    forall k :: 0 <= k < |rules| ==> rules[k].find != []
  }

  /**
   The inner loop of content.js:118-132 over `rules`: each rule runs on the
   text the rules before it produced, and `changed` records whether any of
   them matched. Written as a fold from the last rule.
   */
  function ApplyRules(rules: seq<Rule>, text: string): (r: NodeText)
    requires UsableRules(rules)
    ensures !r.changed ==> r.text == text
    decreases |rules|
  {
    if rules == [] then NodeText(text, false)
    else
      var before := ApplyRules(rules[..|rules| - 1], text);
      var after := RunRule(rules[|rules| - 1], before.text);
      NodeText(after.text, before.changed || after.changed)
  }

  /** One rule over one text: the global replacement, and whether the pattern matched. */
  function RunRule(rule: Rule, text: string): (r: NodeText)
    requires rule.find != []
    ensures r.changed <==> HasMatch(text, rule.find)
    ensures !r.changed ==> r.text == text
  {
    NodeText(ReplaceAll(text, rule.find, rule.replace), HasMatch(text, rule.find))
  }

  /** The text after the first k rules ran. */
  function TextAfter(rules: seq<Rule>, text: string, k: nat): string
    requires UsableRules(rules) && k <= |rules|
  {
    ApplyRules(rules[..k], text).text
  }

  /** The node changed exactly when some rule matched the text that reached it. */
  lemma {:induction false} ChangedIffSomeRuleMatched(rules: seq<Rule>, text: string)
    requires UsableRules(rules)
    ensures ApplyRules(rules, text).changed
            <==> exists k :: 0 <= k < |rules| && HasMatch(TextAfter(rules, text, k), rules[k].find)
    decreases |rules|
  {
    if rules != [] {
      var init := rules[..|rules| - 1];
      ChangedIffSomeRuleMatched(init, text);
      TextAfterPrefix(rules, text);
      assert TextAfter(rules, text, |init|) == ApplyRules(init, text).text;
    }
  }

  /** Dropping the last rule does not change the texts the earlier rules see. */
  lemma TextAfterPrefix(rules: seq<Rule>, text: string)
    requires UsableRules(rules) && rules != []
    ensures UsableRules(rules[..|rules| - 1])
    ensures forall k :: 0 <= k < |rules| - 1 ==>
              TextAfter(rules[..|rules| - 1], text, k) == TextAfter(rules, text, k)
  {
    var init := rules[..|rules| - 1];
    forall k | 0 <= k < |init|
      ensures TextAfter(init, text, k) == TextAfter(rules, text, k)
    {
      assert init[..k] == rules[..k];
    }
  }

  /**
   Running a list of rules is running its first part and then the rest on
   the result: rules apply in order, each to the text the earlier ones
   produced.
   */
  lemma {:induction false} ApplyRulesAppend(a: seq<Rule>, b: seq<Rule>, text: string)
    requires UsableRules(a) && UsableRules(b)
    ensures UsableRules(a + b)
    ensures var first := ApplyRules(a, text);
            var second := ApplyRules(b, first.text);
            ApplyRules(a + b, text) == NodeText(second.text, first.changed || second.changed)
    decreases |b|
  {
    UsableAppend(a, b);
    if b == [] {
      assert a + b == a;
    } else {
      var init := b[..|b| - 1];
      var last := b[|b| - 1];
      ApplyRulesAppend(a, init, text);
      assert (a + b)[..|a + b| - 1] == a + init;
      assert (a + b)[|a + b| - 1] == last;
      var first := ApplyRules(a, text);
      var mid := ApplyRules(init, first.text);
      var whole := ApplyRules(a + init, text);
      assert whole == NodeText(mid.text, first.changed || mid.changed);
      var step := RunRule(last, whole.text);
      assert ApplyRules(a + b, text) == NodeText(step.text, whole.changed || step.changed);
      assert ApplyRules(b, first.text) == NodeText(step.text, mid.changed || step.changed);
    }
  }

  lemma UsableAppend(a: seq<Rule>, b: seq<Rule>)
    requires UsableRules(a) && UsableRules(b)
    ensures UsableRules(a + b)
  {
    var ab := a + b;
    forall k | 0 <= k < |ab| ensures ab[k].find != [] {
      if k >= |a| { assert ab[k] == b[k - |a|]; }
    }
  }

  /** A single rule on its own is one global replacement, changing the text iff it matches. */
  lemma ApplyOneRule(rule: Rule, text: string)
    requires rule.find != []
    ensures UsableRules([rule])
    ensures ApplyRules([rule], text)
            == NodeText(ReplaceAll(text, rule.find, rule.replace), HasMatch(text, rule.find))
  {
    assert [rule][..0] == [];
  }

  /** The first pass decides to rewrite this node. */
  predicate NeedsWrite(rules: seq<Rule>, leaf: TextLeaf)
    requires UsableRules(rules)
  {
    AcceptNode(leaf) && ApplyRules(rules, leaf.nodeValue).changed
  }

  /**
   What one text node looks like after performReplacements: the walker
   skips it, or its text becomes the rules' output (written only if a rule
   matched, which comes to the same thing).
   */
  function ProcessLeaf(rules: seq<Rule>, leaf: TextLeaf): (r: TextLeaf)
    requires UsableRules(rules)
    ensures r.ancestors == leaf.ancestors
    ensures !AcceptNode(leaf) ==> r == leaf
    ensures AcceptNode(leaf) ==> r.nodeValue == ApplyRules(rules, leaf.nodeValue).text
  {
    if NeedsWrite(rules, leaf) then leaf.(nodeValue := ApplyRules(rules, leaf.nodeValue).text)
    else leaf
  }

  /** A queued write is for a node the first pass chose, with that node's new text. */
  predicate IsPendingWrite(rules: seq<Rule>, leaves: seq<TextLeaf>, w: PendingWrite)
    requires UsableRules(rules)
  {
    w.index < |leaves| && NeedsWrite(rules, leaves[w.index])
    && w.newValue == ApplyRules(rules, leaves[w.index].nodeValue).text
  }

  predicate Queued(writes: seq<PendingWrite>, index: nat) {
    exists m :: 0 <= m < |writes| && writes[m].index == index
  }

  /** Queued writes name nodes in walk order, each at most once. */
  predicate InWalkOrder(writes: seq<PendingWrite>) {
    forall m, n :: 0 <= m < n < |writes| ==> writes[m].index < writes[n].index
  }

  /**
   The first pass of content.js:110-138: a write is queued, in walk order,
   for exactly the accepted nodes some rule matched, carrying the rules'
   output for that node.
   */
  method QueueWrites(rules: seq<Rule>, leaves: seq<TextLeaf>) returns (nodesToReplace: seq<PendingWrite>)
    requires UsableRules(rules)
    ensures InWalkOrder(nodesToReplace)
    ensures forall m :: 0 <= m < |nodesToReplace| ==> IsPendingWrite(rules, leaves, nodesToReplace[m])
    ensures forall k :: 0 <= k < |leaves| && NeedsWrite(rules, leaves[k]) ==> Queued(nodesToReplace, k)
  {
    nodesToReplace := [];
    var i := 0;
    while i < |leaves|
      invariant 0 <= i <= |leaves|
      invariant InWalkOrder(nodesToReplace)
      invariant forall m :: 0 <= m < |nodesToReplace| ==> nodesToReplace[m].index < i
      invariant forall m :: 0 <= m < |nodesToReplace| ==> IsPendingWrite(rules, leaves, nodesToReplace[m])
      invariant forall k :: 0 <= k < i && NeedsWrite(rules, leaves[k]) ==> Queued(nodesToReplace, k)
    {
      var newValue := VisitNode(rules, leaves[i]);
      if newValue.Some? {
        var item := PendingWrite(i, newValue.value);
        QueueOne(rules, leaves, nodesToReplace, item, i);
        nodesToReplace := nodesToReplace + [item];
      }
      i := i + 1;
    }
  }

  /**
   The first pass's work on one node the walker reaches (content.js:115-137):
   the new text to queue, if the walker accepts it and some rule matched.
   */
  method VisitNode(rules: seq<Rule>, currentNode: TextLeaf) returns (newValue: Option<string>)
    requires UsableRules(rules)
    ensures newValue.Some? <==> NeedsWrite(rules, currentNode)
    ensures newValue.Some? ==> newValue.value == ApplyRules(rules, currentNode.nodeValue).text
  {
    newValue := None;
    if AcceptNode(currentNode) {
      var outcome := ApplyRules(rules, currentNode.nodeValue);
      if outcome.changed {
        newValue := Some(outcome.text);
      }
    }
  }

  /** Appending the write for node i keeps the first pass's invariants. */
  lemma QueueOne(rules: seq<Rule>, leaves: seq<TextLeaf>, queue: seq<PendingWrite>, item: PendingWrite, i: nat)
    requires UsableRules(rules)
    requires InWalkOrder(queue) && item.index == i
    requires forall m :: 0 <= m < |queue| ==> queue[m].index < i
    requires forall m :: 0 <= m < |queue| ==> IsPendingWrite(rules, leaves, queue[m])
    requires IsPendingWrite(rules, leaves, item)
    ensures InWalkOrder(queue + [item])
    ensures forall m :: 0 <= m < |queue| + 1 ==> (queue + [item])[m].index <= i
    ensures forall m :: 0 <= m < |queue| + 1 ==> IsPendingWrite(rules, leaves, (queue + [item])[m])
    ensures forall k :: Queued(queue, k) ==> Queued(queue + [item], k)
    ensures Queued(queue + [item], i)
  {
    var q := queue + [item];
    assert q[|queue|] == item;
    forall k | Queued(queue, k) ensures Queued(q, k) {
      var m :| 0 <= m < |queue| && queue[m].index == k;
      assert q[m] == queue[m];
    }
  }

  /**
   The second pass of content.js:142-147: every queued node gets its new
   text, every other node is left alone.
   */
  method CommitWrites(leaves: seq<TextLeaf>, nodesToReplace: seq<PendingWrite>) returns (written: seq<TextLeaf>)
    requires InWalkOrder(nodesToReplace)
    requires forall m :: 0 <= m < |nodesToReplace| ==> nodesToReplace[m].index < |leaves|
    ensures |written| == |leaves|
    ensures forall k :: 0 <= k < |leaves| && !Queued(nodesToReplace, k) ==> written[k] == leaves[k]
    ensures forall m :: 0 <= m < |nodesToReplace| ==>
              written[nodesToReplace[m].index]
              == leaves[nodesToReplace[m].index].(nodeValue := nodesToReplace[m].newValue)
  {
    written := leaves;
    var j := 0;
    while j < |nodesToReplace|
      invariant 0 <= j <= |nodesToReplace|
      invariant |written| == |leaves|
      invariant forall k :: 0 <= k < |leaves| && !Queued(nodesToReplace[..j], k) ==> written[k] == leaves[k]
      invariant forall m :: 0 <= m < j ==>
                  written[nodesToReplace[m].index]
                  == leaves[nodesToReplace[m].index].(nodeValue := nodesToReplace[m].newValue)
    {
      var item := nodesToReplace[j];
      written := written[item.index := written[item.index].(nodeValue := item.newValue)];
      j := j + 1;
      assert nodesToReplace[..j] == nodesToReplace[..j - 1] + [item];
    }
    assert nodesToReplace[..j] == nodesToReplace;
  }

  /**
   performReplacements (content.js:70-148). With no rules or no node it
   does nothing. Otherwise the first pass queues a write for every
   accepted node some rule matched, the second performs the queued
   writes, and the outcome is ProcessLeaf on every node.
   */
  method PerformReplacements(rules: seq<Rule>, node: Option<seq<TextLeaf>>)
    returns (result: Option<seq<TextLeaf>>)
    requires UsableRules(rules)
    ensures rules == [] || node.None? ==> result == node
    ensures node.Some? ==> result.Some? && |result.value| == |node.value|
    ensures node.Some? ==>
              forall k :: 0 <= k < |node.value| ==> result.value[k] == ProcessLeaf(rules, node.value[k])
  {
    if rules == [] || node.None? {
      return node;
    }
    var leaves := node.value;
    var nodesToReplace := QueueWrites(rules, leaves);
    var written := CommitWrites(leaves, nodesToReplace);
    forall k | 0 <= k < |leaves|
      ensures written[k] == ProcessLeaf(rules, leaves[k])
    {
      if Queued(nodesToReplace, k) {
        var m :| 0 <= m < |nodesToReplace| && nodesToReplace[m].index == k;
        assert IsPendingWrite(rules, leaves, nodesToReplace[m]);
      }
    }
    result := Some(written);
  }
}

=== FILE: escape.dfy ===
/**
 `escapeRegExp` from content.js: backslash-escapes the regular-expression
 metacharacters of a rule's `find` text so that the pattern built from it
 matches that text literally.
 */
module Escape {
  import opened Wrappers
  import opened Strings

  /** The class `[.*+?^${}()|[\]\\]` of content.js:33. */
  predicate IsRegExpMeta(c: char) {
    c == '.' || c == '*' || c == '+' || c == '?' || c == '^' || c == '$'
    || c == '{' || c == '}' || c == '(' || c == ')' || c == '|'
    || c == '[' || c == ']' || c == '\\'
  }

  function CountMeta(s: string): nat
    decreases |s|
  {
    if s == [] then 0 else (if IsRegExpMeta(s[0]) then 1 else 0) + CountMeta(s[1..])
  }

  /** `str.replace(/[.*+?^${}()|[\]\\]/g, '\\$&')`. */
  function EscapeRegExp(s: string): (r: string)
    ensures |r| == |s| + CountMeta(s)
    ensures (forall k :: 0 <= k < |s| ==> !IsRegExpMeta(s[k])) ==> r == s
    decreases |s|
  {
    if s == [] then []
    else EscapeChar(s[0]) + EscapeRegExp(s[1..])
  }

  /**
   Reads a regular-expression source as a plain literal, the way the
   JavaScript engine reads `escapeRegExp`'s output: a backslash followed by
   a metacharacter stands for that metacharacter, any other character that
   is not a metacharacter stands for itself. Anything else (a bare
   metacharacter, a dangling backslash, an escape such as `\d`) makes the
   source something other than a plain literal, and the result is None.
   */
  function LiteralOf(pattern: string): Option<string>
    decreases |pattern|
  {
    if pattern == [] then Some([])
    else if pattern[0] == '\\' then
      if |pattern| >= 2 && IsRegExpMeta(pattern[1]) then
        match LiteralOf(pattern[2..])
        case Some(t) => Some([pattern[1]] + t)
        case None => None
      else None
    else if IsRegExpMeta(pattern[0]) then None
    else
      match LiteralOf(pattern[1..])
      case Some(t) => Some([pattern[0]] + t)
      case None => None
  }

  /**
   The escaped text is a plain literal, and the literal it denotes is the
   input: every metacharacter got exactly one backslash, every other
   character was copied in order, and dropping the backslashes gives the
   input back.
   */
  lemma {:induction false} LiteralOfEscape(s: string)
    ensures LiteralOf(EscapeRegExp(s)) == Some(s)
    decreases |s|
  {
    if s != [] {
      LiteralOfEscape(s[1..]);
      var e := EscapeRegExp(s);
      var rest := EscapeRegExp(s[1..]);
      if IsRegExpMeta(s[0]) {
        assert e[2..] == rest;
      } else {
        assert e[1..] == rest;
      }
      assert s == [s[0]] + s[1..];
    }
  }

  /** Different find texts never escape to the same pattern. */
  lemma EscapeInjective(a: string, b: string)
    requires EscapeRegExp(a) == EscapeRegExp(b)
    ensures a == b
  {
    LiteralOfEscape(a);
    LiteralOfEscape(b);
  }

  /** Escaping works character by character, so it distributes over concatenation. */
  lemma {:induction false} EscapeAppend(a: string, b: string)
    ensures EscapeRegExp(a + b) == EscapeRegExp(a) + EscapeRegExp(b)
    decreases |a|
  {
    if a != [] {
      var c := a[0];
      assert a + b == [c] + (a[1..] + b);
      assert a == [c] + a[1..];
      EscapeCons(c, a[1..] + b);
      EscapeCons(c, a[1..]);
      EscapeAppend(a[1..], b);
      AppendAssoc(EscapeChar(c), EscapeRegExp(a[1..]), EscapeRegExp(b));
    } else {
      assert a + b == b;
    }
  }

  /** What one character becomes. */
  function EscapeChar(c: char): string {
    if IsRegExpMeta(c) then ['\\', c] else [c]
  }

  lemma EscapeCons(c: char, t: string)
    ensures EscapeRegExp([c] + t) == EscapeChar(c) + EscapeRegExp(t)
  {
    assert ([c] + t)[0] == c && ([c] + t)[1..] == t;
  }

  /**
   One metacharacter between two plain words gets a backslash and nothing
   else changes: `test*test` becomes `test\\*test`, and likewise for `.`
   and `+`.
   */
  lemma EscapeBetweenWords(a: string, c: char, b: string)
    requires forall k :: 0 <= k < |a| ==> !IsRegExpMeta(a[k])
    requires forall k :: 0 <= k < |b| ==> !IsRegExpMeta(b[k])
    requires IsRegExpMeta(c)
    ensures EscapeRegExp(a + [c] + b) == a + ['\\', c] + b
  {
    EscapeWithin(a, c, b);
  }

  lemma EscapeExamplePlain()
    ensures EscapeRegExp("test") == "test"
  {
  }

  lemma EscapeExampleStars()
    ensures EscapeRegExp("***") == "\\*\\*\\*"
  {
    var none: string := [];
    assert "***" == none + ['*'] + "**";
    EscapeWithin(none, '*', "**");
    assert "**" == none + ['*'] + "*";
    EscapeWithin(none, '*', "*");
  }

  lemma EscapeWithin(a: string, c: char, b: string)
    requires IsRegExpMeta(c)
    ensures EscapeRegExp(a + [c] + b) == EscapeRegExp(a) + ['\\', c] + EscapeRegExp(b)
  {
    EscapeAppend(a + [c], b);
    EscapeAppend(a, [c]);
    assert EscapeRegExp([c]) == ['\\', c];
  }
}

=== FILE: examples.dfy ===
/**
 Worked cases of the content script's replacement, taken from the
 behaviour the extension's tests describe: whole-word matches, several
 matches in one text node, case styling, and the tags the walker skips.
 */
module Examples {
  import opened Wrappers
  import opened Strings
  import opened Capitalize
  import opened Selection
  import opened Matcher
  import opened Rules
  import opened Content

  lemma HelloThereNoLaterMatch()
    ensures forall p :: 5 <= p <= 11 ==> !MatchAt("hello there", "hello", p)
  {
    var s := "hello there";
    var f := "hello";
    forall p | 5 <= p <= |s|
      ensures !MatchAt(s, f, p)
    {
      if p == 5 {
        assert !CharsMatch(s[5], f[0]);
      } else if p == 6 {
        assert !CharsMatch(s[6], f[0]);
      } else if p < 11 {
        assert !IsBoundary(s, p);
      }
    }
  }

  lemma HelloThereMatchSet()
    ensures IsMatchSetFrom("hello there", "hello", 0, [0])
  {
    var s := "hello there";
    var f := "hello";
    assert s[0..5] == f;
    assert MatchAt(s, f, 0);
    HelloThereNoLaterMatch();
    forall p | 0 <= p <= |s| && Matches(s, f)(p)
      ensures Covered([0], |f|, p)
    {
      assert [0][0] <= p < [0][0] + |f|;
    }
  }

  lemma HelloThereSubstitute()
    ensures Substitute("hello there", [0], 5, Restyler("hi"), 0) == "hi there"
  {
    var s := "hello there";
    assert s[0..5] == "hello";
    assert SmartCapitalize("hello", "hi") == "hi" by {
      assert Upper("hello")[0] != "hello"[0];
      assert Lower("hi") == "hi";
    }
    assert s[5..] == " there";
    assert [0][1..] == [];
  }

  lemma ReplaceHelloThere()
    ensures ReplaceAll("hello there", "hello", "hi") == "hi there"
  {
    HelloThereMatchSet();
    ReplaceAllMeaning("hello there", "hello", "hi", [0]);
    HelloThereSubstitute();
  }
  lemma LowerGoodbye(o: string)
    requires !IsAllCaps(o) && !StartsWithCapital(o)
    ensures SmartCapitalize(o, "goodbye earth") == "goodbye earth"
  {
    assert Lower("goodbye earth") == "goodbye earth";
  }

  /** An exact occurrence between two word boundaries is a match. */
  lemma ExactOccurrence(s: string, f: string, i: nat)
    requires i + |f| <= |s| && s[i..i + |f|] == f
    requires IsBoundary(s, i) && IsBoundary(s, i + |f|)
    ensures MatchAt(s, f, i)
  {
    MatchesIgnoringCaseIff(f, f);
  }

  /** Two matches cover every match when the one position between them is no match. */
  lemma TwoCover(m: int -> bool, n: nat, hi: int, a: int, b: int)
    requires 0 <= a && a + n + 1 == b && b + n == hi
    requires m(a) && m(b) && !m(a + n) && MatchesFit(m, n, hi)
    ensures IsLeftmostSelection(m, n, 0, hi, [a, b]) <==> (forall p :: 0 <= p < a ==> !m(p))
  {
    if forall p :: 0 <= p < a ==> !m(p) {
      TwoCoverWhenNoEarlierMatch(m, n, hi, a, b);
    } else {
      var p :| 0 <= p < a && m(p);
      if IsLeftmostSelection(m, n, 0, hi, [a, b]) {
        FirstChosenIsFirstMatch(m, n, 0, hi, [a, b], p);
        assert false;
      }
    }
  }

  lemma TwoCoverWhenNoEarlierMatch(m: int -> bool, n: nat, hi: int, a: int, b: int)
    requires 0 <= a && a + n + 1 == b && b + n == hi
    requires m(a) && m(b) && !m(a + n) && MatchesFit(m, n, hi)
    requires forall p :: 0 <= p < a ==> !m(p)
    ensures IsLeftmostSelection(m, n, 0, hi, [a, b])
  {
    var ps := [a, b];
    forall p | 0 <= p <= hi && m(p)
      ensures Covered(ps, n, p)
    {
      if p < a + n {
        assert ps[0] <= p < ps[0] + n;
      } else {
        assert p + n <= hi;
        assert ps[1] <= p < ps[1] + n;
      }
    }
  }

  /**
   A phrase that starts and ends with word characters, written twice with
   a space between, is matched twice: a global search finds both copies.
   */
  lemma PhraseTwiceMatchSet(f: string)
    requires f != [] && IsWordChar(f[0]) && IsWordChar(f[|f| - 1])
    ensures IsMatchSetFrom(f + " " + f, f, 0, [0, |f| + 1])
  {
    var s := f + " " + f;
    var n := |f|;
    var b := n + 1;
    PhraseTwiceText(f);
    assert !IsWordChar(' ');
    ExactOccurrence(s, f, 0);
    ExactOccurrence(s, f, b);
    assert !CharsMatch(s[n], f[0]);
    var m := Matches(s, f);
    assert MatchesFit(m, n, |s|);
    TwoCover(m, n, |s|, 0, b);
  }

  lemma PhraseTwiceText(f: string)
    requires f != []
    ensures var s, n := f + " " + f, |f|;
            |s| == 2 * n + 1 && s[0..n] == f && s[n + 1..2 * n + 1] == f
            && s[n] == ' ' && s[n - 1] == f[n - 1] && s[n + 1] == f[0] && s[2 * n] == f[n - 1]
  {
  }

  /**
   A substitution of two spans: the text around them copied, each span
   replaced by the callback's text for it.
   */
  lemma SubstituteTwo(s: string, a: int, b: int, n: nat, callback: string -> string,
                      before: string, first: string, between: string, second: string, after: string)
    requires 0 <= a && a + n <= b && b + n <= |s|
    requires s[0..a] == before && s[a..a + n] == first && s[a + n..b] == between
    requires s[b..b + n] == second && s[b + n..] == after
    ensures Spaced([a, b], n, 0, |s|)
    ensures Substitute(s, [a, b], n, callback, 0)
            == before + callback(first) + (between + callback(second) + after)
  {
    var ps := [a, b];
    assert ps[0] == a && ps[1..] == [b];
    assert Spaced([b], n, a + n, |s|);
    assert [b][0] == b && [b][1..] == [];
    var tail := Substitute(s, [b], n, callback, a + n);
    assert Substitute(s, [], n, callback, b + n) == after;
    assert tail == between + callback(second) + after;
    assert Substitute(s, ps, n, callback, 0) == before + callback(first) + tail;
  }

  /** Substituting both copies of a phrase written twice. */
  lemma PhraseTwiceSubstitute(f: string, callback: string -> string)
    requires f != []
    ensures Spaced([0, |f| + 1], |f|, 0, |f + " " + f|)
    ensures Substitute(f + " " + f, [0, |f| + 1], |f|, callback, 0) == callback(f) + " " + callback(f)
  {
    PhraseTwiceText(f);
    SubstituteAroundSpace(f + " " + f, f, callback);
  }

  /** The same, for a text known only by its two copies and the space between them. */
  lemma SubstituteAroundSpace(s: string, f: string, callback: string -> string)
    requires f != [] && |s| == 2 * |f| + 1
    requires s[0..|f|] == f && s[|f|] == ' ' && s[|f| + 1..2 * |f| + 1] == f
    ensures Spaced([0, |f| + 1], |f|, 0, |s|)
    ensures Substitute(s, [0, |f| + 1], |f|, callback, 0) == callback(f) + " " + callback(f)
  {
    var n := |f|;
    var none: string := [];
    AroundSpaceSlices(s, f);
    SubstituteTwo(s, 0, n + 1, n, callback, none, f, " ", f, none);
    SpaceBetween(callback(f));
  }

  lemma AroundSpaceSlices(s: string, f: string)
    requires f != [] && |s| == 2 * |f| + 1
    requires s[0..|f|] == f && s[|f|] == ' ' && s[|f| + 1..2 * |f| + 1] == f
    ensures s[0..0] == [] && s[0..0 + |f|] == f && s[0 + |f|..|f| + 1] == " "
    ensures s[|f| + 1..|f| + 1 + |f|] == f && s[|f| + 1 + |f|..] == []
  {
    var n := |f|;
    assert |s[n..n + 1]| == 1 && s[n..n + 1][0] == s[n];
  }

  lemma SpaceBetween(x: string)
    ensures [] + x + (" " + x + []) == x + " " + x
  {
    var none: string := [];
    assert none + x == x;
    assert " " + x + none == " " + x;
    AppendAssoc(x, " ", x);
  }

  /** Both copies of a phrase written twice are replaced, each styled after itself. */
  lemma PhraseTwiceReplaced(f: string, rep: string)
    requires f != [] && IsWordChar(f[0]) && IsWordChar(f[|f| - 1])
    ensures ReplaceAll(f + " " + f, f, rep) == SmartCapitalize(f, rep) + " " + SmartCapitalize(f, rep)
  {
    var s := f + " " + f;
    PhraseTwiceMatchSet(f);
    ReplaceAllMeaning(s, f, rep, [0, |f| + 1]);
    PhraseTwiceSubstitute(f, Restyler(rep));
    assert Restyler(rep)(f) == SmartCapitalize(f, rep);
  }

  /** The text `hello world hello world` is rewritten twice. */
  lemma TwoMatchesReplaced()
    ensures ReplaceAll("hello world hello world", "hello world", "goodbye earth")
            == "goodbye earth goodbye earth"
  {
    var f, g := "hello world", "goodbye earth";
    assert "hello world hello world" == f + " " + f;
    assert "goodbye earth goodbye earth" == g + " " + g;
    assert Upper(f)[0] != f[0];
    LowerGoodbye(f);
    PhraseTwiceReplaced(f, g);
  }

  lemma LowerCaseWholeText()
    ensures ReplaceAll("hello world", "hello world", "goodbye earth") == "goodbye earth"
  {
    var f := "hello world";
    assert Lower(f) == f;
    WholeTextReplaced(f, f, "goodbye earth");
    assert Upper(f)[0] != f[0];
    LowerGoodbye(f);
  }

  lemma AllCapsWholeText()
    ensures ReplaceAll("HELLO", "hello", "world") == "WORLD"
  {
    assert Lower("HELLO") == "hello";
    WholeTextReplaced("HELLO", "hello", "world");
    ExampleAllCaps();
  }

  lemma LeadingCapitalWholeText()
    ensures ReplaceAll("Hello", "hello", "world") == "World"
  {
    assert Lower("Hello") == "hello";
    WholeTextReplaced("Hello", "hello", "world");
    ExampleLeadingCapital();
  }

  /** Text anywhere below an excluded element (a skipped tag or an editable region) is left alone. */
  lemma ExcludedAncestorUntouched(rules: seq<Rule>, leaf: TextLeaf, k: int)
    requires UsableRules(rules)
    requires 0 <= k < |leaf.ancestors| && IsExcluded(leaf.ancestors[k])
    ensures ProcessLeaf(rules, leaf) == leaf
  {
  }

  /** The tag filter compares upper-cased tag names, so a lower-case `script` is skipped. */
  lemma ScriptIsExcluded()
    ensures IsExcluded(Element("script", None))
    ensures IsExcluded(Element("div", Some("")))
    ensures !IsExcluded(Element("p", None))
    ensures !IsExcluded(Element("div", Some("false")))
  {
    assert Upper("script") == "SCRIPT";
    assert Upper("p") == "P";
    assert Upper("div") == "DIV";
  }

  /** A paragraph's text is rewritten. */
  lemma ParagraphRewritten()
    ensures var rules := [Rule("hello world", "goodbye earth")];
            UsableRules(rules)
            && ProcessLeaf(rules, TextLeaf([Element("p", None)], "hello world"))
               == TextLeaf([Element("p", None)], "goodbye earth")
  {
    var rules := [Rule("hello world", "goodbye earth")];
    var p := TextLeaf([Element("p", None)], "hello world");
    assert Upper("p") == "P";
    assert !IsJsWhitespace(p.nodeValue[0]);
    assert AcceptNode(p);
    ApplyOneRule(rules[0], "hello world");
    LowerCaseWholeText();
  }
}

=== FILE: matcher.dfy ===
/**
 The regular expression content.js builds for one rule,
 `new RegExp('\\b' + escapeRegExp(find) + '\\b', 'gi')`, and the global
 `String.prototype.replace` that uses it, written out as a left-to-right
 scanner over the text.

 The pattern between the two `\b`s is the escape of `find`, which the
 engine reads back as the literal `find` itself (Escape.LiteralOfEscape),
 so the scanner compares against `find`. What remains of the regular
 expression is the two word boundaries, case-insensitive comparison and
 the leftmost, non-overlapping choice of matches that the global flag
 makes. Case-insensitive comparison is modelled with ASCII case folding.
 */
module Matcher {
  import opened Strings
  import opened Capitalize
  import opened Selection

  /** `\w` of a non-Unicode regular expression: `[A-Za-z0-9_]`. */
  predicate IsWordChar(c: char) {
    IsAsciiUpper(c) || IsAsciiLower(c) || ('0' <= c <= '9') || c == '_'
  }

  /** Position k of s holds a word character; positions outside s never do. */
  predicate WordAt(s: string, k: int) {
    0 <= k < |s| && IsWordChar(s[k])
  }

  /** `\b` holds at position i, between `s[i-1]` and `s[i]`. */
  predicate IsBoundary(s: string, i: int) {
    WordAt(s, i - 1) != WordAt(s, i)
  }

  /**
   The `i` flag compares a text character with a pattern character after
   upper-casing both (the regular expression's Canonicalize step).
   */
  predicate CharsMatch(a: char, b: char) {
    UpperChar(a) == UpperChar(b)
  }

  /** The text t equals the literal f character by character, ignoring case. */
  predicate MatchesIgnoringCase(t: string, f: string)
    decreases |f|
  {
    |t| == |f| && (f == [] || (CharsMatch(t[0], f[0]) && MatchesIgnoringCase(t[1..], f[1..])))
  }

  /** The regular expression's comparison agrees with comparing `toLowerCase()` forms. */
  lemma {:induction false} MatchesIgnoringCaseIff(t: string, f: string)
    ensures MatchesIgnoringCase(t, f) <==> SameIgnoringCase(t, f)
    decreases |f|
  {
    if |t| == |f| && f != [] {
      MatchesIgnoringCaseIff(t[1..], f[1..]);
      assert Lower(t) == [LowerChar(t[0])] + Lower(t[1..]);
      assert Lower(f) == [LowerChar(f[0])] + Lower(f[1..]);
    }
  }

  /** `\bF\b` with the `i` flag matches the text starting at position i. */
  predicate MatchAt(s: string, f: string, i: int) {
    0 <= i && i + |f| <= |s|
    && IsBoundary(s, i)
    && MatchesIgnoringCase(s[i..i + |f|], f)
    && IsBoundary(s, i + |f|)
  }

  /** Some match starts at or after position i (content.js:125, `findRegex.test`, for i = 0). */
  predicate HasMatchFrom(s: string, f: string, i: int) {
    exists p :: i <= p <= |s| && MatchAt(s, f, p)
  }

  predicate HasMatch(s: string, f: string) {
    HasMatchFrom(s, f, 0)
  }

  /**
   `text.replace(regex, callback)` from position i on: where a match
   starts, its text is replaced by what the callback returns for it and
   scanning resumes after it; elsewhere one character is copied. The
   boundaries are judged on the original text, as the engine does.
   */
  function ReplaceFrom(s: string, f: string, callback: string -> string, i: int): (r: string)
    requires f != [] && 0 <= i <= |s|
    decreases |s| - i
  {
    if i == |s| then []
    else if MatchAt(s, f, i) then
      callback(s[i..i + |f|]) + ReplaceFrom(s, f, callback, i + |f|)
    else
      [s[i]] + ReplaceFrom(s, f, callback, i + 1)
  }

  /** Where no match starts from position i on, the rest of the text is copied unchanged. */
  lemma {:induction false} ReplaceFromNoMatch(s: string, f: string, callback: string -> string, i: int)
    requires f != [] && 0 <= i <= |s| && !HasMatchFrom(s, f, i)
    ensures ReplaceFrom(s, f, callback, i) == s[i..]
    decreases |s| - i
  {
    if i < |s| {
      assert !MatchAt(s, f, i);
      assert !HasMatchFrom(s, f, i + 1);
      ReplaceFromNoMatch(s, f, callback, i + 1);
      assert s[i..] == [s[i]] + s[i + 1..];
    }
  }

  /** The callback content.js:126-130 passes: re-style the replacement after the matched text. */
  function Restyler(rep: string): string -> string {
    m => SmartCapitalize(m, rep)
  }

  /** One rule's global replacement in one text (content.js:122-130). */
  function ReplaceAll(s: string, f: string, rep: string): (r: string)
    requires f != []
    ensures !HasMatch(s, f) ==> r == s
  {
    ReplaceWithoutMatch(s, f, Restyler(rep));
    ReplaceFrom(s, f, Restyler(rep), 0)
  }

  /** A text in which the pattern never matches comes out of the global replace as it went in. */
  lemma ReplaceWithoutMatch(s: string, f: string, callback: string -> string)
    requires f != []
    ensures !HasMatch(s, f) ==> ReplaceFrom(s, f, callback, 0) == s
  {
    if !HasMatch(s, f) {
      ReplaceFromNoMatch(s, f, callback, 0);
    }
  }

  // ---------------------------------------------------------------------
  // The declarative meaning of a global replacement
  // ---------------------------------------------------------------------

  /** The match predicate of one rule over one text, as a value. */
  function Matches(s: string, f: string): int -> bool {
    p => MatchAt(s, f, p)
  }

  /**
   `ps` are the matches a global search of s for f reports from position
   i: the leftmost non-overlapping ones (module Selection).
   */
  predicate IsMatchSetFrom(s: string, f: string, i: int, ps: seq<int>) {
    IsLeftmostSelection(Matches(s, f), |f|, i, |s|, ps)
  }

  /**
   The text with the chosen matches replaced: everything between matches
   copied verbatim, each match replaced by the replacement styled after
   that match's own text.
   */
  function Substitute(s: string, ps: seq<int>, n: nat, callback: string -> string, i: int): string
    requires 0 <= i <= |s| && Spaced(ps, n, i, |s|)
    decreases |ps|
  {
    if ps == [] then s[i..]
    else
      s[i..ps[0]] + callback(s[ps[0]..ps[0] + n])
      + Substitute(s, ps[1..], n, callback, ps[0] + n)
  }

  /** The matches the scanner takes, left to right. */
  function Positions(s: string, f: string, i: int): seq<int>
    requires f != []
  {
    Greedy(Matches(s, f), |f|, i, |s|)
  }

  lemma PositionsAreMatchSet(s: string, f: string, i: int)
    requires f != []
    ensures IsMatchSetFrom(s, f, i, Positions(s, f, i))
  {
    GreedyIsLeftmost(Matches(s, f), |f|, i, |s|);
  }

  /** Copying one more leading character in front of a substitution. */
  lemma SubstituteStep(s: string, ps: seq<int>, n: nat, callback: string -> string, i: int)
    requires 0 <= i < |s| && Spaced(ps, n, i + 1, |s|)
    ensures Spaced(ps, n, i, |s|)
    ensures Substitute(s, ps, n, callback, i) == [s[i]] + Substitute(s, ps, n, callback, i + 1)
  {
    if ps != [] {
      var matched := callback(s[ps[0]..ps[0] + n]);
      var later := Substitute(s, ps[1..], n, callback, ps[0] + n);
      assert Substitute(s, ps, n, callback, i) == s[i..ps[0]] + matched + later;
      assert Substitute(s, ps, n, callback, i + 1) == s[i + 1..ps[0]] + matched + later;
      assert s[i..ps[0]] == [s[i]] + s[i + 1..ps[0]];
      AppendAssoc([s[i]], s[i + 1..ps[0]], matched);
      AppendAssoc([s[i]], s[i + 1..ps[0]] + matched, later);
    } else {
      assert s[i..] == [s[i]] + s[i + 1..];
    }
  }

  /** The scanner's output is the substitution of the positions it matched. */
  lemma {:induction false} ReplaceFromIsSubstitute(s: string, f: string, callback: string -> string, i: int)
    requires f != [] && 0 <= i <= |s|
    ensures Spaced(Positions(s, f, i), |f|, i, |s|)
    ensures ReplaceFrom(s, f, callback, i) == Substitute(s, Positions(s, f, i), |f|, callback, i)
    decreases |s| - i
  {
    PositionsSpaced(s, f, i);
    if i == |s| {
      assert ReplaceFrom(s, f, callback, i) == [];
      assert Positions(s, f, i) == [];
    } else if MatchAt(s, f, i) {
      ReplaceFromIsSubstitute(s, f, callback, i + |f|);
      ReplaceFromAtMatch(s, f, callback, i);
    } else {
      ReplaceFromIsSubstitute(s, f, callback, i + 1);
      ReplaceFromPastNonMatch(s, f, callback, i);
    }
  }

  /** One step of ReplaceFromIsSubstitute: a match at i. */
  lemma ReplaceFromAtMatch(s: string, f: string, callback: string -> string, i: int)
    requires f != [] && 0 <= i < |s| && MatchAt(s, f, i)
    requires Spaced(Positions(s, f, i + |f|), |f|, i + |f|, |s|)
    requires ReplaceFrom(s, f, callback, i + |f|) == Substitute(s, Positions(s, f, i + |f|), |f|, callback, i + |f|)
    ensures Spaced(Positions(s, f, i), |f|, i, |s|)
    ensures ReplaceFrom(s, f, callback, i) == Substitute(s, Positions(s, f, i), |f|, callback, i)
  {
    var rest := ReplaceFrom(s, f, callback, i + |f|);
    assert ReplaceFrom(s, f, callback, i) == callback(s[i..i + |f|]) + rest;
    SubstituteAtMatch(s, f, callback, i);
  }

  /** One step of ReplaceFromIsSubstitute: no match at i. */
  lemma ReplaceFromPastNonMatch(s: string, f: string, callback: string -> string, i: int)
    requires f != [] && 0 <= i < |s| && !MatchAt(s, f, i)
    requires Spaced(Positions(s, f, i + 1), |f|, i + 1, |s|)
    requires ReplaceFrom(s, f, callback, i + 1) == Substitute(s, Positions(s, f, i + 1), |f|, callback, i + 1)
    ensures Spaced(Positions(s, f, i), |f|, i, |s|)
    ensures ReplaceFrom(s, f, callback, i) == Substitute(s, Positions(s, f, i), |f|, callback, i)
  {
    var rest := ReplaceFrom(s, f, callback, i + 1);
    assert ReplaceFrom(s, f, callback, i) == [s[i]] + rest;
    assert !Matches(s, f)(i);
    assert Positions(s, f, i) == Positions(s, f, i + 1);
    SubstituteStep(s, Positions(s, f, i + 1), |f|, callback, i);
  }

  /** Where the scanner takes a match, the substitution starts with the callback's text for it. */
  lemma SubstituteAtMatch(s: string, f: string, callback: string -> string, i: int)
    requires f != [] && 0 <= i < |s| && MatchAt(s, f, i)
    ensures Spaced(Positions(s, f, i), |f|, i, |s|)
    ensures Spaced(Positions(s, f, i + |f|), |f|, i + |f|, |s|)
    ensures Substitute(s, Positions(s, f, i), |f|, callback, i)
            == callback(s[i..i + |f|]) + Substitute(s, Positions(s, f, i + |f|), |f|, callback, i + |f|)
  {
    PositionsSpaced(s, f, i);
    PositionsSpaced(s, f, i + |f|);
    PositionsAtMatch(s, f, i);
    SubstituteFirstSpan(s, i, Positions(s, f, i + |f|), |f|, callback);
  }

  /** A match at i is the first position the scanner takes from i. */
  lemma PositionsAtMatch(s: string, f: string, i: int)
    requires f != [] && 0 <= i < |s| && MatchAt(s, f, i)
    ensures Positions(s, f, i) == [i] + Positions(s, f, i + |f|)
  {
    assert Matches(s, f)(i);
  }

  /** A substitution whose first chosen span starts right where it begins. */
  lemma SubstituteFirstSpan(s: string, i: int, rest: seq<int>, n: nat, callback: string -> string)
    requires 0 <= i && i + n <= |s| && Spaced([i] + rest, n, i, |s|) && Spaced(rest, n, i + n, |s|)
    ensures Substitute(s, [i] + rest, n, callback, i) == callback(s[i..i + n]) + Substitute(s, rest, n, callback, i + n)
  {
    var ps := [i] + rest;
    assert ps[0] == i && ps[1..] == rest;
    var c := callback(s[i..i + n]);
    var later := Substitute(s, rest, n, callback, i + n);
    assert Substitute(s, ps, n, callback, i) == s[i..i] + c + later;
    assert s[i..i] + c == c;
  }

  lemma PositionsSpaced(s: string, f: string, i: int)
    requires f != []
    ensures Spaced(Positions(s, f, i), |f|, i, |s|)
  {
    PositionsAreMatchSet(s, f, i);
  }

  /**
   The meaning of one rule's replacement: for the one leftmost,
   non-overlapping set of case-insensitive, word-bounded occurrences of
   `find`, the result copies the text between occurrences and puts the
   replacement, re-styled after each occurrence's own text, in its place.
   */
  lemma ReplaceAllMeaning(s: string, f: string, rep: string, ps: seq<int>)
    requires f != []
    requires IsMatchSetFrom(s, f, 0, ps)
    ensures Spaced(ps, |f|, 0, |s|)
    ensures ReplaceAll(s, f, rep) == Substitute(s, ps, |f|, Restyler(rep), 0)
  {
    PositionsAreMatchSet(s, f, 0);
    SelectionUnique(Matches(s, f), |f|, 0, |s|, ps, Positions(s, f, 0));
    ReplaceFromIsSubstitute(s, f, Restyler(rep), 0);
  }

  /** Such a set of occurrences always exists. */
  lemma MatchSetExists(s: string, f: string)
    requires f != []
    ensures IsMatchSetFrom(s, f, 0, Positions(s, f, 0))
  {
    PositionsAreMatchSet(s, f, 0);
  }

  /**
   A text that is, as a whole, the find text up to letter case, and starts
   and ends with word characters, is replaced as a whole by the
   replacement styled after it.
   */
  lemma WholeTextReplaced(s: string, f: string, rep: string)
    requires f != [] && SameIgnoringCase(s, f)
    requires IsWordChar(s[0]) && IsWordChar(s[|s| - 1])
    ensures ReplaceAll(s, f, rep) == SmartCapitalize(s, rep)
  {
    assert |s| == |Lower(s)| == |Lower(f)| == |f|;
    MatchesIgnoringCaseIff(s, f);
    assert s[0..|f|] == s;
    assert MatchAt(s, f, 0);
    var m := Matches(s, f);
    assert m(0);
    forall p | 0 <= p <= |s| && m(p)
      ensures Covered([0], |f|, p)
    {
      assert [0][0] <= p < [0][0] + |f|;
    }
    ReplaceAllMeaning(s, f, rep, [0]);
    assert [0][1..] == [];
    assert s[0..0] == [] && s[|f|..] == [];
  }
}

=== FILE: options.dfy ===
/**
 The options page (options.js): parsing the find field, saving a rule in
 add or edit mode, and choosing the tabs to tell about a change. Removing
 a rule is Rules.Splice.
 */
module Options {
  import opened Wrappers
  import opened Strings
  import opened Rules
  import opened Tabs

  // ---------------------------------------------------------------------
  // parseFindString
  // ---------------------------------------------------------------------

  /** Every item is non-empty with no whitespace at either end. */
  predicate CleanItems(items: seq<string>) {
    forall k :: 0 <= k < |items| ==> items[k] != [] && Unpadded(items[k])
  }

  /** `pieces.map(item => item.trim()).filter(item => item.length > 0)`. */
  function CleanPieces(pieces: seq<string>): (items: seq<string>)
    ensures |items| <= |pieces|
    ensures CleanItems(items)
    ensures CommaFree(pieces) ==> CommaFree(items)
    decreases |pieces|
  {
    if pieces == [] then []
    else
      var item := Trim(pieces[0]);
      var head := if item == [] then [] else [item];
      var rest := CleanPieces(pieces[1..]);
      CleanItemsConcat(head, rest);
      CommaFreeConcat(head, rest);
      CommaFreeTail(pieces);
      head + rest
  }

  lemma CleanItemsConcat(a: seq<string>, b: seq<string>)
    requires CleanItems(a) && CleanItems(b)
    ensures CleanItems(a + b)
  {
    forall k | 0 <= k < |a + b| ensures (a + b)[k] != [] && Unpadded((a + b)[k]) {
      if k < |a| { assert (a + b)[k] == a[k]; } else { assert (a + b)[k] == b[k - |a|]; }
    }
  }

  lemma CommaFreeConcat(a: seq<string>, b: seq<string>)
    ensures CommaFree(a) && CommaFree(b) ==> CommaFree(a + b)
  {
    if CommaFree(a) && CommaFree(b) {
      forall k | 0 <= k < |a + b| ensures ',' !in (a + b)[k] {
        if k < |a| { assert (a + b)[k] == a[k]; } else { assert (a + b)[k] == b[k - |a|]; }
      }
    }
  }

  lemma CommaFreeTail(pieces: seq<string>)
    requires pieces != []
    ensures CommaFree(pieces) ==> ',' !in pieces[0] && CommaFree(pieces[1..])
  {
    if CommaFree(pieces) {
      forall k | 0 <= k < |pieces| - 1 ensures ',' !in pieces[1..][k] {
        assert pieces[1..][k] == pieces[k + 1];
      }
    }
  }

  /** Cleaning works piece by piece, so it distributes over concatenation. */
  lemma {:induction false} CleanPiecesAppend(a: seq<string>, b: seq<string>)
    ensures CleanPieces(a + b) == CleanPieces(a) + CleanPieces(b)
    decreases |a|
  {
    if a == [] {
      assert a + b == b;
    } else {
      var x := a[0];
      var head := if Trim(x) == [] then [] else [Trim(x)];
      assert a + b == [x] + (a[1..] + b);
      assert a == [x] + a[1..];
      CleanPiecesCons(x, a[1..] + b);
      CleanPiecesCons(x, a[1..]);
      CleanPiecesAppend(a[1..], b);
      AppendAssoc(head, CleanPieces(a[1..]), CleanPieces(b));
    }
  }

  lemma CleanPiecesCons(x: string, rest: seq<string>)
    ensures CleanPieces([x] + rest) == (if Trim(x) == [] then [] else [Trim(x)]) + CleanPieces(rest)
  {
    assert ([x] + rest)[0] == x && ([x] + rest)[1..] == rest;
  }

  /** Cleaning keeps a piece exactly when it is not all whitespace. */
  lemma {:induction false} CleanPiecesEmptyIff(pieces: seq<string>)
    ensures CleanPieces(pieces) == [] <==> AllBlank(pieces)
    decreases |pieces|
  {
    if pieces != [] {
      CleanPiecesEmptyIff(pieces[1..]);
      AllBlankCons(pieces[0], pieces[1..]);
      assert [pieces[0]] + pieces[1..] == pieces;
    }
  }

  /**
   `parseFindString` (options.js:73-75): the comma-separated pieces of the
   find field, trimmed, with the empty ones dropped. Every item is
   non-empty, has no whitespace at either end and holds no comma.
   */
  function ParseFindString(findString: string): (items: seq<string>)
    ensures CleanItems(items) && CommaFree(items)
    ensures |items| <= |SplitOnComma(findString)|
  {
    CleanPieces(SplitOnComma(findString))
  }

  /** The text holds nothing but commas and whitespace. */
  predicate OnlyCommasAndWhitespace(s: string) {
    forall k :: 0 <= k < |s| ==> s[k] == ',' || IsJsWhitespace(s[k])
  }

  /** Every piece is all whitespace. */
  predicate AllBlank(pieces: seq<string>) {
    forall j :: 0 <= j < |pieces| ==> AllWhitespace(pieces[j])
  }

  lemma AllBlankCons(x: string, pieces: seq<string>)
    ensures AllBlank([x] + pieces) <==> AllWhitespace(x) && AllBlank(pieces)
  {
    var ps := [x] + pieces;
    assert ps[0] == x;
    assert forall j :: 1 <= j < |ps| ==> ps[j] == pieces[j - 1];
    assert forall j :: 0 <= j < |pieces| ==> pieces[j] == ps[j + 1];
  }

  lemma AllWhitespaceCons(c: char, t: string)
    ensures AllWhitespace([c] + t) <==> IsJsWhitespace(c) && AllWhitespace(t)
  {
    var s := [c] + t;
    assert s[0] == c;
    assert forall k :: 1 <= k < |s| ==> s[k] == t[k - 1];
    assert forall k :: 0 <= k < |t| ==> t[k] == s[k + 1];
  }

  lemma OnlyCommasCons(s: string)
    requires s != []
    ensures OnlyCommasAndWhitespace(s) <==>
            (s[0] == ',' || IsJsWhitespace(s[0])) && OnlyCommasAndWhitespace(s[1..])
  {
    assert forall k :: 1 <= k < |s| ==> s[k] == s[1..][k - 1];
  }

  /** Every comma piece is all whitespace exactly when the text is only commas and whitespace. */
  lemma {:induction false} SplitBlankIff(s: string)
    ensures AllBlank(SplitOnComma(s)) <==> OnlyCommasAndWhitespace(s)
    decreases |s|
  {
    if s != [] {
      var rest := SplitOnComma(s[1..]);
      SplitBlankIff(s[1..]);
      OnlyCommasCons(s);
      if s[0] == ',' {
        AllBlankCons([], rest);
      } else {
        AllBlankCons([s[0]] + rest[0], rest[1..]);
        AllBlankCons(rest[0], rest[1..]);
        assert [rest[0]] + rest[1..] == rest;
        AllWhitespaceCons(s[0], rest[0]);
      }
    }
  }

  /**
   The field yields no find items exactly when it holds nothing but commas
   and whitespace: what the check at options.js:191-195 refuses.
   */
  lemma ParseFindStringEmptyIff(s: string)
    ensures ParseFindString(s) == [] <==> OnlyCommasAndWhitespace(s)
  {
    CleanPiecesEmptyIff(SplitOnComma(s));
    SplitBlankIff(s);
  }

  /** A comma cuts the field into two independently parsed halves. */
  lemma ParseFindStringConcat(a: string, b: string)
    ensures ParseFindString(a + [','] + b) == ParseFindString(a) + ParseFindString(b)
  {
    SplitConcat(a, b);
    CleanPiecesAppend(SplitOnComma(a), SplitOnComma(b));
  }

  /** A field without commas is one item, its trimmed text, unless that is empty. */
  lemma ParseFindStringNoComma(s: string)
    requires ',' !in s
    ensures ParseFindString(s) == (if Trim(s) == [] then [] else [Trim(s)])
  {
    SplitNoComma(s);
    assert [s][1..] == [];
  }

  /**
   Joining clean items with commas and parsing the result gives the items
   back: parsing inverts `join(',')` on the lists it can produce.
   */
  lemma {:induction false} ParseFindStringJoin(items: seq<string>)
    requires |items| >= 1
    requires CleanItems(items) && CommaFree(items)
    ensures ParseFindString(JoinWithComma(items)) == items
  {
    SplitJoin(items);
    CleanUnpadded(items);
  }

  /** Pieces that are already clean pass through cleaning unchanged. */
  lemma {:induction false} CleanUnpadded(items: seq<string>)
    requires CleanItems(items)
    ensures CleanPieces(items) == items
    decreases |items|
  {
    if items != [] {
      TrimUnpadded(items[0]);
      CleanUnpadded(items[1..]);
      assert [items[0]] + items[1..] == items;
    }
  }

  // The cases the extension's tests name.

  /** A comma-free field holding one word padded with whitespace parses to that word. */
  lemma ParseOneItem(pre: string, core: string, post: string)
    requires AllWhitespace(pre) && AllWhitespace(post) && core != [] && Unpadded(core)
    requires ',' !in pre + core + post
    ensures ParseFindString(pre + core + post) == [core]
  {
    ParseFindStringNoComma(pre + core + post);
    TrimPadded(pre, core, post);
  }

  /**
   Two words, each padded with whitespace, around one comma parse to the
   two words: `' hello , world '` and `'hello, world'` give
   `['hello', 'world']`.
   */
  lemma ParseTwoItems(p1: string, w1: string, p2: string, p3: string, w2: string, p4: string)
    requires AllWhitespace(p1) && AllWhitespace(p2) && AllWhitespace(p3) && AllWhitespace(p4)
    requires w1 != [] && Unpadded(w1) && w2 != [] && Unpadded(w2)
    requires ',' !in p1 + w1 + p2 && ',' !in p3 + w2 + p4
    ensures ParseFindString((p1 + w1 + p2) + [','] + (p3 + w2 + p4)) == [w1, w2]
  {
    ParseOneItem(p1, w1, p2);
    ParseOneItem(p3, w2, p4);
    ParseFindStringConcat(p1 + w1 + p2, p3 + w2 + p4);
  }

  /**
   A blank piece between two commas adds nothing: `'hello,,world'` parses
   like `'hello,world'`.
   */
  lemma ParseSkipsBlankPiece(a: string, blank: string, b: string)
    requires AllWhitespace(blank)
    ensures ParseFindString(a + [','] + (blank + [','] + b)) == ParseFindString(a) + ParseFindString(b)
  {
    var rest := blank + [','] + b;
    BlankParsesToNothing(blank);
    ParseFindStringConcat(blank, b);
    assert ParseFindString(rest) == ParseFindString(b);
    ParseFindStringConcat(a, rest);
  }

  lemma BlankParsesToNothing(blank: string)
    requires AllWhitespace(blank)
    ensures ParseFindString(blank) == []
  {
    ParseFindStringEmptyIff(blank);
  }

  lemma ParseExampleNothing()
    ensures ParseFindString("") == []
  {
    ParseFindStringEmptyIff("");
  }

  lemma ParseExampleEmpty()
    ensures ParseFindString(",,") == []
  {
    ParseFindStringEmptyIff(",,");
    assert OnlyCommasAndWhitespace(",,");
  }

  // ---------------------------------------------------------------------
  // handleAdd and handleUpdate
  // ---------------------------------------------------------------------

  /**
   The Save button on the options page, `handleAdd` (options.js:176-237),
   which hands edits to `handleUpdate` (options.js:145-150). It checks, in
   this order: both trimmed fields non-empty, the fields different, the
   find field not made only of commas and whitespace; then an edit
   overwrites its row, and an addition is refused if the find is already
   present ignoring case and appended otherwise. The value is the list
   written back to storage.
   */
  function HandleAdd(findInput: string, replaceInput: string, mode: FormMode, rules: seq<Rule>)
    : (r: Result<seq<Rule>, Rejection>)
    requires mode.EditMode? ==> 0 <= mode.index <= |rules|
    ensures var f, p := Trim(findInput), Trim(replaceInput);
            r.Success? <==>
              f != [] && p != [] && f != p && !OnlyCommasAndWhitespace(f)
              && (mode.AddMode? ==> !FindExists(rules, f))
    ensures var f, p := Trim(findInput), Trim(replaceInput);
            (f == [] || p == [] ==> r == Failure(FieldsRequired))
            && (f != [] && p != [] && f == p ==> r == Failure(SameFindAndReplace))
            && (f != [] && p != [] && f != p && OnlyCommasAndWhitespace(f) ==> r == Failure(NoFindItems))
            && (r.Failure? && f != [] && p != [] && f != p && !OnlyCommasAndWhitespace(f) ==>
                  mode.AddMode? && r.error == DuplicateFind)
    ensures r.Success? ==> WellFormedRule(Rule(Trim(findInput), Trim(replaceInput)))
    ensures r.Success? && mode.AddMode? ==> r.value == rules + [Rule(Trim(findInput), Trim(replaceInput))]
    ensures r.Success? && mode.EditMode? ==>
              r.value == Overwrite(rules, mode.index, Rule(Trim(findInput), Trim(replaceInput)))
  {
    match ValidateFields(findInput, replaceInput)
    case Failure(e) => Failure(e)
    case Success(rule) =>
      match CheckFindItems(rule)
      case Failure(e) => Failure(e)
      case Success(_) => Store(rules, rule, mode)
  }

  /** The find-format check of options.js:190-195. */
  function CheckFindItems(rule: Rule): (r: Result<Rule, Rejection>)
    ensures r.Success? <==> !OnlyCommasAndWhitespace(rule.find)
    ensures r.Success? ==> r.value == rule
    ensures r.Failure? ==> r.error == NoFindItems
  {
    ParseFindStringEmptyIff(rule.find);
    if |ParseFindString(rule.find)| == 0 then Failure(NoFindItems) else Success(rule)
  }

  /** Storing a checked rule: an edit overwrites its row, an addition goes through Append. */
  function Store(rules: seq<Rule>, rule: Rule, mode: FormMode): (r: Result<seq<Rule>, Rejection>)
    requires mode.EditMode? ==> 0 <= mode.index <= |rules|
    ensures r.Success? <==> (mode.AddMode? ==> !FindExists(rules, rule.find))
    ensures r.Failure? ==> r.error == DuplicateFind
    ensures r.Success? && mode.AddMode? ==> r.value == rules + [rule]
    ensures r.Success? && mode.EditMode? ==> r.value == Overwrite(rules, mode.index, rule)
  {
    match mode
    case EditMode(index) => Success(Overwrite(rules, index, rule))
    case AddMode => Append(rules, rule)
  }

  /**
   What the options page stores is always well formed, and additions keep
   finds unique ignoring case.
   */
  lemma HandleAddPreservesInvariants(findInput: string, replaceInput: string, mode: FormMode, rules: seq<Rule>)
    requires mode.EditMode? ==> 0 <= mode.index <= |rules|
    requires HandleAdd(findInput, replaceInput, mode, rules).Success?
    ensures AllWellFormed(rules) ==> AllWellFormed(HandleAdd(findInput, replaceInput, mode, rules).value)
    ensures NoDuplicateFinds(rules) && mode.AddMode? ==>
              NoDuplicateFinds(HandleAdd(findInput, replaceInput, mode, rules).value)
  {
    var rule := Rule(Trim(findInput), Trim(replaceInput));
    if AllWellFormed(rules) {
      StorePreservesWellFormed(rules, if mode.EditMode? then mode.index else 0, rule);
    }
    if mode.AddMode? && NoDuplicateFinds(rules) {
      assert Append(rules, rule).Success?;
      AppendPreservesNoDuplicates(rules, rule);
    }
  }

  // ---------------------------------------------------------------------
  // notifyTabsOfRuleChanges
  // ---------------------------------------------------------------------

  /** The test at options.js:130: a non-empty url that is not a browser page. */
  predicate ShouldNotify(tab: Tab) {
    tab.url.Some? && tab.url.value != [] && !IsBrowserPage(tab.url.value)
  }

  /**
   The tabs the options page sends `rulesUpdated` to (options.js:128-132):
   those that pass the test, in the order the query reported them.
   */
  function NotifyTargets(tabs: seq<Tab>): (targets: seq<Tab>)
    ensures |targets| <= |tabs|
    ensures forall t :: t in targets <==> t in tabs && ShouldNotify(t)
    decreases |tabs|
  {
    if tabs == [] then []
    else (if ShouldNotify(tabs[0]) then [tabs[0]] else []) + NotifyTargets(tabs[1..])
  }

  /** Tabs are judged one at a time, so the choice distributes over concatenation. */
  lemma {:induction false} NotifyTargetsAppend(a: seq<Tab>, b: seq<Tab>)
    ensures NotifyTargets(a + b) == NotifyTargets(a) + NotifyTargets(b)
    decreases |a|
  {
    if a == [] {
      assert a + b == b;
    } else {
      assert (a + b)[1..] == a[1..] + b;
      NotifyTargetsAppend(a[1..], b);
    }
  }

  lemma NotifyExample()
    ensures NotifyTargets([Tab(1, Some("https://example.com/")), Tab(2, Some("chrome://settings")),
                           Tab(3, None), Tab(4, Some("")), Tab(5, Some("chrome-extension://abc/options.html"))])
            == [Tab(1, Some("https://example.com/"))]
  {
    assert IsBrowserPage("chrome://settings");
    assert IsBrowserPage("chrome-extension://abc/options.html");
    assert !IsBrowserPage("https://example.com/") by {
      assert "https://example.com/"[0] != "chrome://"[0];
      assert "https://example.com/"[0] != "chrome-extension://"[0];
    }
  }
}

=== FILE: popup.dfy ===
/**
 The toolbar popup (popup.js): the same rule form as the options page,
 with one check fewer, and its own way of telling tabs about a change.
 Removing a rule is Rules.Splice.
 */
module Popup {
  import opened Wrappers
  import opened Strings
  import opened Rules
  import opened Tabs
  import Options

  /**
   `saveRule` (popup.js:100-130): the field checks both pages share, then
   an edit overwrites its row and an addition is refused if the find is
   already present ignoring case. Unlike the options page there is no
   check that the find field names at least one item.
   */
  function SaveRule(findInput: string, replaceInput: string, mode: FormMode, rules: seq<Rule>)
    : (r: Result<seq<Rule>, Rejection>)
    requires mode.EditMode? ==> 0 <= mode.index <= |rules|
    ensures var f, p := Trim(findInput), Trim(replaceInput);
            r.Success? <==> f != [] && p != [] && f != p && (mode.AddMode? ==> !FindExists(rules, f))
    ensures var f, p := Trim(findInput), Trim(replaceInput);
            (f == [] || p == [] ==> r == Failure(FieldsRequired))
            && (f != [] && p != [] && f == p ==> r == Failure(SameFindAndReplace))
            && (r.Failure? && f != [] && p != [] && f != p ==> mode.AddMode? && r.error == DuplicateFind)
    ensures r.Success? ==> WellFormedRule(Rule(Trim(findInput), Trim(replaceInput)))
    ensures r.Success? && mode.AddMode? ==> r.value == rules + [Rule(Trim(findInput), Trim(replaceInput))]
    ensures r.Success? && mode.EditMode? ==>
              r.value == Overwrite(rules, mode.index, Rule(Trim(findInput), Trim(replaceInput)))
  {
    match ValidateFields(findInput, replaceInput)
    case Failure(e) => Failure(e)
    case Success(rule) => Options.Store(rules, rule, mode)
  }

  /** The two pages save the same list whenever the find field names at least one item. */
  lemma SaveRuleAgreesWithHandleAdd(findInput: string, replaceInput: string, mode: FormMode, rules: seq<Rule>)
    requires mode.EditMode? ==> 0 <= mode.index <= |rules|
    ensures !Options.OnlyCommasAndWhitespace(Trim(findInput)) ==>
              SaveRule(findInput, replaceInput, mode, rules) == Options.HandleAdd(findInput, replaceInput, mode, rules)
    ensures Options.OnlyCommasAndWhitespace(Trim(findInput)) && Trim(findInput) != [] ==>
              Options.HandleAdd(findInput, replaceInput, mode, rules).Failure?
  {
  }

  /**
   A find of only a comma is refused by the options page but stored by the
   popup.
   */
  lemma CommaFindDiverges()
    ensures SaveRule(",", "x", AddMode, []) == Success([Rule(",", "x")])
    ensures Options.HandleAdd(",", "x", AddMode, []) == Failure(NoFindItems)
  {
    TrimComma();
    assert Options.OnlyCommasAndWhitespace(",");
  }

  lemma TrimComma()
    ensures Trim(",") == "," && Trim("x") == "x"
  {
    var none: string := [];
    assert none + "," + none == ",";
    assert none + "x" + none == "x";
    TrimPadded(none, ",", none);
    TrimPadded(none, "x", none);
  }

  /** What the popup saves is always well formed, and additions keep finds unique ignoring case. */
  lemma SaveRulePreservesInvariants(findInput: string, replaceInput: string, mode: FormMode, rules: seq<Rule>)
    requires mode.EditMode? ==> 0 <= mode.index <= |rules|
    requires SaveRule(findInput, replaceInput, mode, rules).Success?
    ensures AllWellFormed(rules) ==> AllWellFormed(SaveRule(findInput, replaceInput, mode, rules).value)
    ensures NoDuplicateFinds(rules) && mode.AddMode? ==>
              NoDuplicateFinds(SaveRule(findInput, replaceInput, mode, rules).value)
  {
    var rule := Rule(Trim(findInput), Trim(replaceInput));
    if AllWellFormed(rules) {
      StorePreservesWellFormed(rules, if mode.EditMode? then mode.index else 0, rule);
    }
    if mode.AddMode? && NoDuplicateFinds(rules) {
      assert Append(rules, rule).Success?;
      AppendPreservesNoDuplicates(rules, rule);
    }
  }

  // ---------------------------------------------------------------------
  // notifyTabsOfRuleChanges
  // ---------------------------------------------------------------------

  /**
   The outcome of the popup's `tabs.forEach`: the tabs messaged, and
   whether the loop stopped early because a tab had no `url`
   (`tab.url.startsWith` then throws, ending the callback).
   */
  datatype Broadcast = Broadcast(messaged: seq<Tab>, aborted: bool)

  /** The test at popup.js:165: the url is not a browser page. An empty url passes it. */
  predicate PopupNotifies(url: string) {
    !IsBrowserPage(url)
  }

  /** The tabs before the first one without a url all have one. */
  predicate AllHaveUrls(tabs: seq<Tab>) {
    forall k :: 0 <= k < |tabs| ==> tabs[k].url.Some?
  }

  /**
   popup.js:163-170: message every tab whose url passes the test, in the
   order reported, stopping at the first tab that has no url.
   */
  function NotifyTabs(tabs: seq<Tab>): (b: Broadcast)
    ensures b.aborted <==> !AllHaveUrls(tabs)
    ensures |b.messaged| <= |tabs|
    ensures forall t :: t in b.messaged ==> t in tabs && t.url.Some? && PopupNotifies(t.url.value)
    ensures !b.aborted ==>
              forall t :: t in tabs && PopupNotifies(t.url.value) ==> t in b.messaged
    decreases |tabs|
  {
    if tabs == [] then Broadcast([], false)
    else if tabs[0].url.None? then Broadcast([], true)
    else
      var rest := NotifyTabs(tabs[1..]);
      assert AllHaveUrls(tabs) <==> AllHaveUrls(tabs[1..]) by {
        assert forall k :: 1 <= k < |tabs| ==> tabs[k] == tabs[1..][k - 1];
      }
      Broadcast((if PopupNotifies(tabs[0].url.value) then [tabs[0]] else []) + rest.messaged, rest.aborted)
  }

  /**
   While every tab has a url, the loop goes tab by tab in the reported
   order: the tabs messaged for `a + b` are those for `a`, then those for
   `b`, each once, and only `b` can stop the loop.
   */
  lemma {:induction false} NotifyTabsAppend(a: seq<Tab>, b: seq<Tab>)
    requires AllHaveUrls(a)
    ensures NotifyTabs(a + b) == Broadcast(NotifyTabs(a).messaged + NotifyTabs(b).messaged, NotifyTabs(b).aborted)
    decreases |a|
  {
    if a == [] {
      assert a + b == b;
    } else {
      assert (a + b)[1..] == a[1..] + b;
      assert AllHaveUrls(a[1..]) by {
        assert forall k :: 0 <= k < |a[1..]| ==> a[1..][k] == a[k + 1];
      }
      NotifyTabsAppend(a[1..], b);
      var head: seq<Tab> := if PopupNotifies(a[0].url.value) then [a[0]] else [];
      AppendAssoc(head, NotifyTabs(a[1..]).messaged, NotifyTabs(b).messaged);
    }
  }

  /** A tab without a url stops the loop: the tabs after it are never messaged. */
  lemma {:induction false} NotifyTabsStopsAtMissingUrl(a: seq<Tab>, t: Tab, b: seq<Tab>)
    requires AllHaveUrls(a) && t.url.None?
    ensures NotifyTabs(a + [t] + b) == Broadcast(NotifyTabs(a).messaged, true)
    decreases |a|
  {
    if a == [] {
      assert a + [t] + b == [t] + b;
    } else {
      assert (a + [t] + b)[1..] == a[1..] + [t] + b;
      assert AllHaveUrls(a[1..]) by {
        assert forall k :: 0 <= k < |a[1..]| ==> a[1..][k] == a[k + 1];
      }
      NotifyTabsStopsAtMissingUrl(a[1..], t, b);
    }
  }

  /**
   When every tab has a non-empty url, the popup messages exactly the tabs
   the options page does, in the same order.
   */
  lemma {:induction false} NotifyTabsAgreesWithOptions(tabs: seq<Tab>)
    requires forall k :: 0 <= k < |tabs| ==> tabs[k].url.Some? && tabs[k].url.value != []
    ensures NotifyTabs(tabs) == Broadcast(Options.NotifyTargets(tabs), false)
    decreases |tabs|
  {
    if tabs != [] {
      NotifyTabsAgreesWithOptions(tabs[1..]);
    }
  }

  /** A tab whose url is empty is messaged by the popup but skipped by the options page. */
  lemma EmptyUrlDiverges()
    ensures NotifyTabs([Tab(7, Some(""))]).messaged == [Tab(7, Some(""))]
    ensures Options.NotifyTargets([Tab(7, Some(""))]) == []
  {
    assert !StartsWith("", "chrome://") && !StartsWith("", "chrome-extension://");
  }
}

=== FILE: rules.dfy ===
/**
 The rule list both settings pages edit (options.js, popup.js): the rule
 record, the field validation they share, and the list operations they
 perform on the array read from storage (append, overwrite an index,
 `splice(index, 1)`).
 */
module Rules {
  import opened Wrappers
  import opened Strings

  /** One stored find/replace pair, `{ find, replace }`. */
  datatype Rule = Rule(find: string, replace: string)

  /** Why a save was refused; the comment gives the status message shown. */
  datatype Rejection =
    | FieldsRequired      // "Both fields are required."
    | SameFindAndReplace  // "Find and Replace values cannot be the same."
    | NoFindItems         // "Please enter at least one word or phrase to find."
    | DuplicateFind       // A rule for "<find>" already exists.

  /** The form's mode, kept in the save button's `data-mode`/`data-index`. */
  datatype FormMode = AddMode | EditMode(index: int)

  /** What a save produces: the validated fields both pages store. */
  predicate WellFormedRule(rule: Rule) {
    rule.find != [] && rule.replace != []
    && Trim(rule.find) == rule.find && Trim(rule.replace) == rule.replace
    && rule.find != rule.replace
  }

  predicate AllWellFormed(rules: seq<Rule>) {
    forall k :: 0 <= k < |rules| ==> WellFormedRule(rules[k])
  }

  /** Some existing rule's find equals `find` after `toLowerCase()` on both. */
  predicate FindExists(rules: seq<Rule>, find: string) {
    exists k :: 0 <= k < |rules| && SameIgnoringCase(rules[k].find, find)
  }

  /** No two rules have finds that are equal ignoring case. */
  predicate NoDuplicateFinds(rules: seq<Rule>) {
    forall i, j :: 0 <= i < j < |rules| ==> !SameIgnoringCase(rules[i].find, rules[j].find)
  }

  /**
   The checks both pages make before touching storage (options.js:177-188,
   popup.js:101-112): trim both inputs, refuse an empty one, refuse equal
   ones (a case-sensitive comparison). What passes is a well-formed rule.
   */
  function ValidateFields(findInput: string, replaceInput: string): (r: Result<Rule, Rejection>)
    ensures r.Success? <==>
              Trim(findInput) != [] && Trim(replaceInput) != [] && Trim(findInput) != Trim(replaceInput)
    ensures r.Success? ==> WellFormedRule(r.value)
                           && r.value == Rule(Trim(findInput), Trim(replaceInput))
    ensures r.Failure? && (Trim(findInput) == [] || Trim(replaceInput) == []) ==> r.error == FieldsRequired
    ensures r.Failure? && Trim(findInput) != [] && Trim(replaceInput) != [] ==> r.error == SameFindAndReplace
  {
    var findValue := Trim(findInput);
    var replaceValue := Trim(replaceInput);
    if findValue == [] || replaceValue == [] then Failure(FieldsRequired)
    else if findValue == replaceValue then Failure(SameFindAndReplace)
    else
      TrimmedRule(findInput, replaceInput);
      Success(Rule(findValue, replaceValue))
  }

  lemma TrimmedRule(findInput: string, replaceInput: string)
    requires Trim(findInput) != [] && Trim(replaceInput) != [] && Trim(findInput) != Trim(replaceInput)
    ensures WellFormedRule(Rule(Trim(findInput), Trim(replaceInput)))
  {
    TrimIdempotent(findInput);
    TrimIdempotent(replaceInput);
  }

  /**
   Add mode: refuse a find already present ignoring case, else push the
   rule at the end (options.js:208-217, popup.js:123-129).
   */
  function Append(rules: seq<Rule>, rule: Rule): (r: Result<seq<Rule>, Rejection>)
    ensures r.Failure? <==> FindExists(rules, rule.find)
    ensures r.Failure? ==> r.error == DuplicateFind
    ensures r.Success? ==> |r.value| == |rules| + 1 && r.value[..|rules|] == rules && r.value[|rules|] == rule
  {
    if FindExists(rules, rule.find) then Failure(DuplicateFind) else Success(rules + [rule])
  }

  /**
   Edit mode: `rules[index] = rule`, with no duplicate check. An index one
   past the end appends, as JavaScript's assignment does; the page reaches
   it when the row being edited is removed before Save.
   */
  function Overwrite(rules: seq<Rule>, index: int, rule: Rule): (r: seq<Rule>)
    requires 0 <= index <= |rules|
    ensures |r| == (if index == |rules| then |rules| + 1 else |rules|) && r[index] == rule
    ensures forall k :: 0 <= k < |rules| && k != index ==> r[k] == rules[k]
  {
    if index == |rules| then rules + [rule] else rules[index := rule]
  }

  /** Where `splice(start, 1)` starts: a negative start counts from the end, clamped at 0. */
  function SpliceStart(length: nat, start: int): (s: nat)
    ensures s <= length
  {
    if start < 0 then (if length + start < 0 then 0 else length + start)
    else if start > length then length
    else start
  }

  /**
   `rules.splice(start, 1)` (options.js:247, popup.js:146): removes the
   element at the effective start, if there is one; everything else keeps
   its relative order.
   */
  function Splice(rules: seq<Rule>, start: int): (r: seq<Rule>)
    ensures SpliceStart(|rules|, start) < |rules| ==>
              |r| == |rules| - 1
              && r[..SpliceStart(|rules|, start)] == rules[..SpliceStart(|rules|, start)]
              && r[SpliceStart(|rules|, start)..] == rules[SpliceStart(|rules|, start) + 1..]
    ensures SpliceStart(|rules|, start) == |rules| ==> r == rules
    ensures multiset(r) <= multiset(rules)
  {
    var s := SpliceStart(|rules|, start);
    if s < |rules| then
      assert rules == rules[..s] + [rules[s]] + rules[s + 1..];
      rules[..s] + rules[s + 1..]
    else rules
  }

  /** Putting the removed rule back where it was restores the list. */
  lemma SpliceReinsert(rules: seq<Rule>, index: int)
    requires 0 <= index < |rules|
    ensures var r := Splice(rules, index); r[..index] + [rules[index]] + r[index..] == rules
  {
    var r := Splice(rules, index);
    assert r[..index] == rules[..index];
    assert r[index..] == rules[index + 1..];
    assert rules == rules[..index] + [rules[index]] + rules[index + 1..];
  }

  /** Each surviving rule is the one at the same index before the removal point, or one further on. */
  lemma SpliceElement(rules: seq<Rule>, start: int, k: int)
    requires SpliceStart(|rules|, start) < |rules| && 0 <= k < |rules| - 1
    ensures var s := SpliceStart(|rules|, start);
            Splice(rules, start)[k] == rules[if k < s then k else k + 1]
  {
    var s := SpliceStart(|rules|, start);
    var r := Splice(rules, start);
    if k < s {
      assert r[k] == r[..s][k];
    } else {
      assert r[k] == r[s..][k - s];
    }
  }

  /** Removing a rule keeps finds unique ignoring case. */
  lemma SplicePreservesNoDuplicates(rules: seq<Rule>, start: int)
    requires NoDuplicateFinds(rules)
    ensures NoDuplicateFinds(Splice(rules, start))
  {
    var s := SpliceStart(|rules|, start);
    var r := Splice(rules, start);
    if s < |rules| {
      forall i, j | 0 <= i < j < |r|
        ensures !SameIgnoringCase(r[i].find, r[j].find)
      {
        SpliceElement(rules, start, i);
        SpliceElement(rules, start, j);
      }
    }
  }

  /** Removing a rule keeps every remaining rule well formed. */
  lemma SplicePreservesWellFormed(rules: seq<Rule>, start: int)
    requires AllWellFormed(rules)
    ensures AllWellFormed(Splice(rules, start))
  {
    var s := SpliceStart(|rules|, start);
    var r := Splice(rules, start);
    if s < |rules| {
      forall k | 0 <= k < |r|
        ensures WellFormedRule(r[k])
      {
        SpliceElement(rules, start, k);
      }
    }
  }

  /** Adding through Append keeps finds unique ignoring case. */
  lemma AppendPreservesNoDuplicates(rules: seq<Rule>, rule: Rule)
    requires NoDuplicateFinds(rules)
    requires Append(rules, rule).Success?
    ensures NoDuplicateFinds(Append(rules, rule).value)
  {
    var r := Append(rules, rule).value;
    forall i, j | 0 <= i < j < |r|
      ensures !SameIgnoringCase(r[i].find, r[j].find)
    {
      if j == |rules| {
        assert r[i] == rules[i];
        assert !SameIgnoringCase(rules[i].find, rule.find);
      } else {
        assert r[i] == rules[i] && r[j] == rules[j];
      }
    }
  }

  /** Appending or overwriting with a well-formed rule keeps every rule well formed. */
  lemma StorePreservesWellFormed(rules: seq<Rule>, index: int, rule: Rule)
    requires AllWellFormed(rules) && WellFormedRule(rule)
    ensures AllWellFormed(rules + [rule])
    ensures 0 <= index <= |rules| ==> AllWellFormed(Overwrite(rules, index, rule))
  {
    var appended := rules + [rule];
    forall k | 0 <= k < |appended| ensures WellFormedRule(appended[k]) {
      if k < |rules| { assert appended[k] == rules[k]; }
    }
  }

  /** Overwriting with a find no other rule shares keeps finds unique ignoring case. */
  lemma OverwritePreservesNoDuplicates(rules: seq<Rule>, index: int, rule: Rule)
    requires 0 <= index <= |rules| && NoDuplicateFinds(rules)
    requires forall k :: 0 <= k < |rules| && k != index ==> !SameIgnoringCase(rules[k].find, rule.find)
    ensures NoDuplicateFinds(Overwrite(rules, index, rule))
  {
  }

  /**
   An edit is not checked for duplicates, so it can break the invariant:
   editing the second of `hello`/`bye` to find `HELLO` stores two finds
   equal ignoring case.
   */
  lemma OverwriteCanDuplicate()
    ensures var rules := [Rule("hello", "hi"), Rule("bye", "ciao")];
            NoDuplicateFinds(rules) && !NoDuplicateFinds(Overwrite(rules, 1, Rule("HELLO", "hey")))
  {
    var rules := [Rule("hello", "hi"), Rule("bye", "ciao")];
    assert Lower("hello")[0] != Lower("bye")[0];
    var r := Overwrite(rules, 1, Rule("HELLO", "hey"));
    assert Lower("HELLO") == Lower("hello");
    assert SameIgnoringCase(r[0].find, r[1].find);
  }

  /**
   The form keeps its edit index when its row is removed: Edit on row 1,
   Remove on row 1, then Save. On `[a, b, c]` the save overwrites `c`,
   which is lost.
   */
  lemma StaleEditLosesRule(a: Rule, b: Rule, c: Rule, edited: Rule)
    ensures Overwrite(Splice([a, b, c], 1), 1, edited) == [a, edited]
  {
    var rules := [a, b, c];
    var r := Splice(rules, 1);
    assert SpliceStart(3, 1) == 1;
    assert r[..1] == [a] && r[1..] == [c];
    assert r == r[..1] + r[1..];
  }

  /**
   The same path on the last row: Edit on row 1 of `[hello, bye]`, Remove
   on row 1, then Save appends past the end with no duplicate check, so
   the finds are no longer unique.
   */
  lemma StaleEditDuplicates()
    ensures var rules := [Rule("hello", "hi"), Rule("bye", "ciao")];
            NoDuplicateFinds(rules) && !NoDuplicateFinds(Overwrite(Splice(rules, 1), 1, Rule("HELLO", "hey")))
  {
    var rules := [Rule("hello", "hi"), Rule("bye", "ciao")];
    assert Lower("hello")[0] != Lower("bye")[0];
    var left := Splice(rules, 1);
    assert SpliceStart(2, 1) == 1;
    assert left[..1] == [Rule("hello", "hi")] && |left| == 1;
    var r := Overwrite(left, 1, Rule("HELLO", "hey"));
    assert r == [Rule("hello", "hi"), Rule("HELLO", "hey")];
    assert Lower("HELLO") == Lower("hello");
    assert SameIgnoringCase(r[0].find, r[1].find);
  }
}

=== FILE: selection.dfy ===
/**
 The choice a global regular-expression search makes among the positions
 where its pattern matches: scanning left to right, it takes the first
 match, resumes after its end, and repeats, so the matches it reports are
 the leftmost ones that do not overlap. Stated here for any match
 predicate `m` whose matches all have length `n`.
 */
module Selection {

  /** Positions in [lo, hi - n], increasing, each at least n after the one before. */
  predicate Spaced(ps: seq<int>, n: nat, lo: int, hi: int) {
    (forall k :: 0 <= k < |ps| ==> lo <= ps[k] && ps[k] + n <= hi)
    && (forall j, k :: 0 <= j < k < |ps| ==> ps[j] + n <= ps[k])
  }

  /** Position p lies inside one of the chosen spans. */
  predicate Covered(ps: seq<int>, n: nat, p: int) {
    exists k :: 0 <= k < |ps| && ps[k] <= p < ps[k] + n
  }

  /** Every match of m fits before hi. */
  ghost predicate MatchesFit(m: int -> bool, n: nat, hi: int) {
    forall p :: m(p) ==> p + n <= hi
  }

  /**
   ps is what a global search from lo reports: non-overlapping matches,
   and every match starting in [lo, hi] lies inside one of them.
   */
  predicate IsLeftmostSelection(m: int -> bool, n: nat, lo: int, hi: int, ps: seq<int>) {
    Spaced(ps, n, lo, hi)
    && (forall k :: 0 <= k < |ps| ==> m(ps[k]))
    && (forall p :: lo <= p <= hi && m(p) ==> Covered(ps, n, p))
  }

  /** The scan itself. */
  function Greedy(m: int -> bool, n: nat, i: int, hi: int): seq<int>
    requires n > 0
    decreases hi - i
  {
    if i >= hi then []
    else if m(i) then [i] + Greedy(m, n, i + n, hi)
    else Greedy(m, n, i + 1, hi)
  }

  /** The scan reports the leftmost non-overlapping matches. */
  lemma {:induction false} GreedyIsLeftmost(m: int -> bool, n: nat, i: int, hi: int)
    requires n > 0 && MatchesFit(m, n, hi)
    ensures IsLeftmostSelection(m, n, i, hi, Greedy(m, n, i, hi))
    decreases hi - i
  {
    var g := Greedy(m, n, i, hi);
    if i >= hi {
      assert g == [];
      SelectionEmpty(m, n, i, hi);
    } else if m(i) {
      var rest := Greedy(m, n, i + n, hi);
      assert g == [i] + rest;
      GreedyIsLeftmost(m, n, i + n, hi);
      SelectionCons(m, n, i, hi, rest);
    } else {
      var rest := Greedy(m, n, i + 1, hi);
      assert g == rest;
      GreedyIsLeftmost(m, n, i + 1, hi);
      SelectionSkip(m, n, i, hi, rest);
    }
  }

  /** Past the last place a match fits, the search reports nothing. */
  lemma SelectionEmpty(m: int -> bool, n: nat, i: int, hi: int)
    requires n > 0 && MatchesFit(m, n, hi) && i >= hi
    ensures IsLeftmostSelection(m, n, i, hi, [])
  {
    forall p | i <= p <= hi
      ensures !m(p)
    {
    }
  }

  /** A position that is no match can be skipped. */
  lemma SelectionSkip(m: int -> bool, n: nat, i: int, hi: int, ps: seq<int>)
    requires !m(i) && IsLeftmostSelection(m, n, i + 1, hi, ps)
    ensures IsLeftmostSelection(m, n, i, hi, ps)
  {
  }

  /** A match at i followed by the selection resumed after it is the selection from i. */
  lemma SelectionCons(m: int -> bool, n: nat, i: int, hi: int, rest: seq<int>)
    requires n > 0 && m(i) && i + n <= hi
    requires IsLeftmostSelection(m, n, i + n, hi, rest)
    ensures IsLeftmostSelection(m, n, i, hi, [i] + rest)
  {
    SpacedCons(n, i, hi, rest);
    var ps := [i] + rest;
    forall k | 0 <= k < |ps|
      ensures m(ps[k])
    {
      if k > 0 { assert ps[k] == rest[k - 1]; }
    }
    forall p | i <= p <= hi && m(p)
      ensures Covered(ps, n, p)
    {
      CoveredCons(n, i, rest, p);
    }
  }

  lemma SpacedCons(n: nat, i: int, hi: int, rest: seq<int>)
    requires i + n <= hi && Spaced(rest, n, i + n, hi)
    ensures Spaced([i] + rest, n, i, hi)
  {
    var ps := [i] + rest;
    forall k | 0 <= k < |ps|
      ensures i <= ps[k] && ps[k] + n <= hi
    {
      if k > 0 { assert ps[k] == rest[k - 1]; }
    }
    forall j, k | 0 <= j < k < |ps|
      ensures ps[j] + n <= ps[k]
    {
      assert ps[k] == rest[k - 1];
      if j > 0 { assert ps[j] == rest[j - 1]; }
    }
  }

  lemma CoveredCons(n: nat, i: int, rest: seq<int>, p: int)
    requires i <= p
    requires i + n <= p ==> Covered(rest, n, p)
    ensures Covered([i] + rest, n, p)
  {
    var ps := [i] + rest;
    if p < i + n {
      assert ps[0] <= p < ps[0] + n;
    } else {
      var k :| 0 <= k < |rest| && rest[k] <= p < rest[k] + n;
      assert ps[k + 1] == rest[k];
    }
  }

  /** Dropping the first chosen match leaves the selection resumed after it. */
  lemma SelectionTail(m: int -> bool, n: nat, lo: int, hi: int, ps: seq<int>)
    requires n > 0 && ps != []
    requires IsLeftmostSelection(m, n, lo, hi, ps)
    ensures IsLeftmostSelection(m, n, ps[0] + n, hi, ps[1..])
  {
    SpacedTail(ps, n, lo, hi);
    var tail := ps[1..];
    forall k | 0 <= k < |tail|
      ensures m(tail[k])
    {
      assert tail[k] == ps[k + 1];
    }
    forall p | ps[0] + n <= p <= hi && m(p)
      ensures Covered(tail, n, p)
    {
      CoveredTail(ps, n, p);
    }
  }

  lemma SpacedTail(ps: seq<int>, n: nat, lo: int, hi: int)
    requires ps != [] && Spaced(ps, n, lo, hi)
    ensures Spaced(ps[1..], n, ps[0] + n, hi)
  {
    var tail := ps[1..];
    forall k | 0 <= k < |tail|
      ensures ps[0] + n <= tail[k] && tail[k] + n <= hi
    {
      assert tail[k] == ps[k + 1];
    }
    forall j, k | 0 <= j < k < |tail|
      ensures tail[j] + n <= tail[k]
    {
      assert tail[j] == ps[j + 1] && tail[k] == ps[k + 1];
    }
  }

  lemma CoveredTail(ps: seq<int>, n: nat, p: int)
    requires ps != [] && ps[0] + n <= p && Covered(ps, n, p)
    ensures Covered(ps[1..], n, p)
  {
    var k :| 0 <= k < |ps| && ps[k] <= p < ps[k] + n;
    assert ps[1..][k - 1] == ps[k];
  }

  /** No match in range comes before the first chosen one. */
  lemma FirstChosenIsFirstMatch(m: int -> bool, n: nat, lo: int, hi: int, ps: seq<int>, p: int)
    requires IsLeftmostSelection(m, n, lo, hi, ps)
    requires lo <= p <= hi && m(p)
    ensures ps != [] && ps[0] <= p
  {
    assert Covered(ps, n, p);
    var k :| 0 <= k < |ps| && ps[k] <= p < ps[k] + n;
    if k > 0 {
      assert ps[0] + n <= ps[k];
    }
  }

  /** Two outcomes of the same search start alike: both empty, or both with the same first match. */
  lemma SelectionsStartAlike(m: int -> bool, n: nat, lo: int, hi: int, ps: seq<int>, qs: seq<int>)
    requires IsLeftmostSelection(m, n, lo, hi, ps) && IsLeftmostSelection(m, n, lo, hi, qs)
    ensures ps == [] <==> qs == []
    ensures ps != [] ==> ps[0] == qs[0]
  {
    if ps != [] {
      assert lo <= ps[0] <= hi && m(ps[0]);
      FirstChosenIsFirstMatch(m, n, lo, hi, qs, ps[0]);
      assert lo <= qs[0] <= hi && m(qs[0]);
      FirstChosenIsFirstMatch(m, n, lo, hi, ps, qs[0]);
    } else if qs != [] {
      assert lo <= qs[0] <= hi && m(qs[0]);
      FirstChosenIsFirstMatch(m, n, lo, hi, ps, qs[0]);
    }
  }

  /** A global search has only one possible outcome. */
  lemma {:induction false} SelectionUnique(m: int -> bool, n: nat, lo: int, hi: int, ps: seq<int>, qs: seq<int>)
    requires n > 0
    requires IsLeftmostSelection(m, n, lo, hi, ps) && IsLeftmostSelection(m, n, lo, hi, qs)
    ensures ps == qs
    decreases |ps|
  {
    SelectionsStartAlike(m, n, lo, hi, ps, qs);
    if ps != [] {
      SelectionTail(m, n, lo, hi, ps);
      SelectionTail(m, n, lo, hi, qs);
      SelectionUnique(m, n, ps[0] + n, hi, ps[1..], qs[1..]);
      SameHeadSameTail(ps, qs);
    }
  }

  lemma SameHeadSameTail(ps: seq<int>, qs: seq<int>)
    requires ps != [] && qs != [] && ps[0] == qs[0] && ps[1..] == qs[1..]
    ensures ps == qs
  {
    assert ps == [ps[0]] + ps[1..];
    assert qs == [qs[0]] + qs[1..];
  }
}

=== FILE: strings.dfy ===
/**
 The JavaScript string primitives the extension relies on: ASCII case
 mapping (`toUpperCase`/`toLowerCase` restricted to the ASCII letters),
 `trim` with ECMAScript's whitespace set, `startsWith`, and `split(',')`.
 */
module Strings {

  // ---------------------------------------------------------------------
  // Case mapping
  // ---------------------------------------------------------------------

  predicate IsAsciiUpper(c: char) { 'A' <= c <= 'Z' }

  predicate IsAsciiLower(c: char) { 'a' <= c <= 'z' }

  function UpperChar(c: char): (u: char)
    ensures !IsAsciiLower(u)
    ensures IsAsciiLower(c) ==> IsAsciiUpper(u)
    ensures !IsAsciiLower(c) ==> u == c
  {
    if IsAsciiLower(c) then (c as int - 32) as char else c
  }

  function LowerChar(c: char): (l: char)
    ensures !IsAsciiUpper(l)
    ensures IsAsciiUpper(c) ==> IsAsciiLower(l)
    ensures !IsAsciiUpper(c) ==> l == c
  {
    if IsAsciiUpper(c) then (c as int + 32) as char else c
  }

  /** `s.toUpperCase()`, character by character. */
  function Upper(s: string): (r: string)
    ensures |r| == |s|
    ensures forall k :: 0 <= k < |s| ==> r[k] == UpperChar(s[k])
  {
    seq(|s|, k requires 0 <= k < |s| => UpperChar(s[k]))
  }

  /** `s.toLowerCase()`, character by character. */
  function Lower(s: string): (r: string)
    ensures |r| == |s|
    ensures forall k :: 0 <= k < |s| ==> r[k] == LowerChar(s[k])
  {
    seq(|s|, k requires 0 <= k < |s| => LowerChar(s[k]))
  }

  /** Two strings that differ at most in letter case. */
  predicate SameIgnoringCase(a: string, b: string) {
    Lower(a) == Lower(b)
  }

  /** `s === s.toUpperCase()` holds exactly when no lower-case letter occurs in `s`. */
  lemma UpperFixedIffNoLower(s: string)
    ensures Upper(s) == s <==> forall k :: 0 <= k < |s| ==> !IsAsciiLower(s[k])
  {
    if forall k :: 0 <= k < |s| ==> !IsAsciiLower(s[k]) {
      assert forall k :: 0 <= k < |s| ==> Upper(s)[k] == s[k];
    } else {
      var k :| 0 <= k < |s| && IsAsciiLower(s[k]);
      assert Upper(s)[k] != s[k];
    }
  }

  /** Concatenation is associative; stated once so that proofs can name the step. */
  lemma AppendAssoc<T>(a: seq<T>, b: seq<T>, c: seq<T>)
    ensures a + (b + c) == (a + b) + c
  {
  }

  // ---------------------------------------------------------------------
  // Whitespace and trim
  // ---------------------------------------------------------------------

  /**
   ECMAScript's WhiteSpace and LineTerminator code points, the set that
   `String.prototype.trim` removes: TAB, LF, VT, FF, CR, SPACE, NBSP,
   U+1680, U+2000-U+200A, LS, PS, U+202F, U+205F, U+3000 and the BOM.
   */
  predicate IsJsWhitespace(c: char) {
    var n := c as int;
    n == 0x09 || n == 0x0A || n == 0x0B || n == 0x0C || n == 0x0D
    || n == 0x20 || n == 0xA0 || n == 0x1680 || (0x2000 <= n <= 0x200A)
    || n == 0x2028 || n == 0x2029 || n == 0x202F || n == 0x205F
    || n == 0x3000 || n == 0xFEFF
  }

  predicate AllWhitespace(s: string) {
    forall k :: 0 <= k < |s| ==> IsJsWhitespace(s[k])
  }

  /** Neither end of `s` is whitespace (vacuously true of the empty string). */
  predicate Unpadded(s: string) {
    s == [] || (!IsJsWhitespace(s[0]) && !IsJsWhitespace(s[|s| - 1]))
  }

  /** Drops leading whitespace (TrimStartSpec says what is dropped). */
  function TrimStart(s: string): (r: string)
    ensures |r| <= |s|
    decreases |s|
  {
    if s != [] && IsJsWhitespace(s[0]) then TrimStart(s[1..]) else s
  }

  /** The result of TrimStart is the suffix of `s` after a whitespace-only prefix, and starts with a non-whitespace character. */
  lemma {:induction false} TrimStartSpec(s: string)
    ensures var r := TrimStart(s);
            r == s[|s| - |r|..] && AllWhitespace(s[..|s| - |r|]) && (r == [] || !IsJsWhitespace(r[0]))
    decreases |s|
  {
    if s != [] && IsJsWhitespace(s[0]) {
      TrimStartSpec(s[1..]);
      var r := TrimStart(s[1..]);
      assert s[1..][|s| - 1 - |r|..] == s[|s| - |r|..];
      assert forall k :: 1 <= k < |s| - |r| ==> s[k] == s[1..][k - 1];
    } else {
      assert s[..0] == [];
    }
  }

  /** Drops trailing whitespace (TrimEndSpec says what is dropped). */
  function TrimEnd(s: string): (r: string)
    ensures |r| <= |s|
    decreases |s|
  {
    if s != [] && IsJsWhitespace(s[|s| - 1]) then TrimEnd(s[..|s| - 1]) else s
  }

  /** The result of TrimEnd is the prefix of `s` before a whitespace-only suffix, and ends with a non-whitespace character. */
  lemma {:induction false} TrimEndSpec(s: string)
    ensures var r := TrimEnd(s);
            r == s[..|r|] && AllWhitespace(s[|r|..]) && (r == [] || !IsJsWhitespace(r[|r| - 1]))
    decreases |s|
  {
    if s != [] && IsJsWhitespace(s[|s| - 1]) {
      TrimEndSpec(s[..|s| - 1]);
      var r := TrimEnd(s[..|s| - 1]);
      assert s[..|s| - 1][..|r|] == s[..|r|];
      assert forall k :: |r| <= k < |s| - 1 ==> s[k] == s[..|s| - 1][k];
    } else {
      assert s[|s|..] == [];
    }
  }

  /** `s.trim()`. */
  function Trim(s: string): (r: string)
    ensures |r| <= |s|
    ensures Unpadded(r)
    ensures forall c :: c in r ==> c in s
    ensures r == [] <==> AllWhitespace(s)
  {
    var t := TrimStart(s);
    var r := TrimEnd(t);
    TrimStartSpec(s);
    TrimEndSpec(t);
    assert forall c :: c in r ==> c in t;
    assert forall c :: c in t ==> c in s;
    TrimEmptyIff(s);
    r
  }

  lemma TrimEmptyIff(s: string)
    ensures TrimEnd(TrimStart(s)) == [] <==> AllWhitespace(s)
  {
    var t := TrimStart(s);
    var i := |s| - |t|;
    var r := TrimEnd(t);
    TrimStartSpec(s);
    TrimEndSpec(t);
    if r == [] {
      assert t[|r|..] == t;
      assert |t| == 0;
      assert s[..i] == s;
    } else {
      var j := i + |r| - 1;
      assert s[j] == t[|r| - 1] == r[|r| - 1];
      assert !IsJsWhitespace(s[j]);
    }
  }

  /** Trimming removes exactly the surrounding whitespace and keeps the interior verbatim. */
  lemma TrimPadded(pre: string, core: string, post: string)
    requires AllWhitespace(pre) && AllWhitespace(post) && Unpadded(core)
    ensures Trim(pre + core + post) == core
  {
    var s := pre + core + post;
    if core == [] {
      assert s == pre + post;
      forall k | 0 <= k < |s| ensures IsJsWhitespace(s[k]) {
        if k < |pre| { assert s[k] == pre[k]; } else { assert s[k] == post[k - |pre|]; }
      }
      TrimEmptyIff(s);
    } else {
      assert s == pre + (core + post);
      assert (core + post)[0] == core[0];
      TrimStartPadded(pre, core + post);
      TrimEndPadded(core, post);
      TrimIsBothEnds(s);
    }
  }

  lemma TrimIsBothEnds(s: string)
    ensures Trim(s) == TrimEnd(TrimStart(s))
  {
  }

  /** A string with no whitespace at either end is its own trim. */
  lemma TrimUnpadded(s: string)
    requires Unpadded(s)
    ensures Trim(s) == s
  {
    assert TrimStart(s) == s;
    assert TrimEnd(s) == s;
    TrimIsBothEnds(s);
  }

  lemma {:induction false} TrimStartPadded(pre: string, rest: string)
    requires AllWhitespace(pre)
    requires rest == [] || !IsJsWhitespace(rest[0])
    ensures TrimStart(pre + rest) == rest
    decreases |pre|
  {
    if pre != [] {
      assert (pre + rest)[1..] == pre[1..] + rest;
      TrimStartPadded(pre[1..], rest);
    } else {
      assert pre + rest == rest;
    }
  }

  lemma {:induction false} TrimEndPadded(rest: string, post: string)
    requires AllWhitespace(post)
    requires rest == [] || !IsJsWhitespace(rest[|rest| - 1])
    ensures TrimEnd(rest + post) == rest
    decreases |post|
  {
    if post != [] {
      assert (rest + post)[..|rest + post| - 1] == rest + post[..|post| - 1];
      TrimEndPadded(rest, post[..|post| - 1]);
    } else {
      assert rest + post == rest;
    }
  }

  /** Trimming twice is trimming once. */
  lemma TrimIdempotent(s: string)
    ensures Trim(Trim(s)) == Trim(s)
  {
    TrimUnpadded(Trim(s));
  }

  // ---------------------------------------------------------------------
  // startsWith
  // ---------------------------------------------------------------------

  /** `s.startsWith(prefix)`. */
  predicate StartsWith(s: string, prefix: string) {
    |prefix| <= |s| && s[..|prefix|] == prefix
  }

  // ---------------------------------------------------------------------
  // split(',')
  // ---------------------------------------------------------------------

  /** No piece holds a comma. */
  predicate CommaFree(pieces: seq<string>) {
    forall k :: 0 <= k < |pieces| ==> ',' !in pieces[k]
  }

  /**
   `s.split(',')`: the pieces between commas, in order. The empty string
   gives one empty piece, and two adjacent commas give an empty piece.
   */
  function SplitOnComma(s: string): (pieces: seq<string>)
    ensures |pieces| >= 1
    ensures CommaFree(pieces)
    decreases |s|
  {
    if s == [] then [[]]
    else
      var rest := SplitOnComma(s[1..]);
      if s[0] == ',' then [[]] + rest
      else [[s[0]] + rest[0]] + rest[1..]
  }

  /** `pieces.join(',')`. */
  function JoinWithComma(pieces: seq<string>): string
    requires |pieces| >= 1
    decreases |pieces|
  {
    if |pieces| == 1 then pieces[0]
    else pieces[0] + [','] + JoinWithComma(pieces[1..])
  }

  /** Joining the pieces of a split gives back the original string. */
  lemma {:induction false} JoinSplit(s: string)
    ensures JoinWithComma(SplitOnComma(s)) == s
    decreases |s|
  {
    if s != [] {
      var rest := SplitOnComma(s[1..]);
      JoinSplit(s[1..]);
      if s[0] == ',' {
        assert SplitOnComma(s)[1..] == rest;
        assert s == [','] + s[1..];
      } else if |rest| == 1 {
        assert s == [s[0]] + s[1..];
      } else {
        var ps := SplitOnComma(s);
        assert ps[1..] == rest[1..];
        assert JoinWithComma(rest) == rest[0] + [','] + JoinWithComma(rest[1..]);
        assert s == [s[0]] + s[1..];
      }
    }
  }

  /** Splitting a comma-join of comma-free pieces gives back the pieces. */
  lemma {:induction false} SplitJoin(pieces: seq<string>)
    requires |pieces| >= 1
    requires CommaFree(pieces)
    ensures SplitOnComma(JoinWithComma(pieces)) == pieces
    decreases |pieces|
  {
    if |pieces| == 1 {
      SplitNoComma(pieces[0]);
    } else {
      SplitJoin(pieces[1..]);
      SplitConcat(pieces[0], JoinWithComma(pieces[1..]));
      SplitNoComma(pieces[0]);
      assert [pieces[0]] + pieces[1..] == pieces;
    }
  }

  /** A string without commas splits into itself alone. */
  lemma {:induction false} SplitNoComma(s: string)
    requires ',' !in s
    ensures SplitOnComma(s) == [s]
    decreases |s|
  {
    if s != [] {
      SplitNoComma(s[1..]);
      assert s == [s[0]] + s[1..];
    }
  }

  /** A comma cuts a string into two independently split halves. */
  lemma {:induction false} SplitConcat(a: string, b: string)
    ensures SplitOnComma(a + [','] + b) == SplitOnComma(a) + SplitOnComma(b)
    decreases |a|
  {
    var rb := SplitOnComma(b);
    if a == [] {
      assert a + [','] + b == [','] + b;
      SplitCons(',', b);
    } else {
      var t := a[1..] + [','] + b;
      assert a + [','] + b == [a[0]] + t;
      assert a == [a[0]] + a[1..];
      SplitConcat(a[1..], b);
      var ra := SplitOnComma(a[1..]);
      var rt := SplitOnComma(t);
      assert rt == ra + rb;
      SplitCons(a[0], t);
      SplitCons(a[0], a[1..]);
      if a[0] == ',' {
        SplitCommaFirst(rt, ra, rb);
      } else {
        SplitCharFirst([a[0]], rt, ra, rb);
      }
    }
  }

  lemma SplitCommaFirst(rt: seq<string>, ra: seq<string>, rb: seq<string>)
    requires rt == ra + rb
    ensures [[]] + rt == ([[]] + ra) + rb
  {
  }

  lemma SplitCharFirst(c: string, rt: seq<string>, ra: seq<string>, rb: seq<string>)
    requires rt == ra + rb && |ra| >= 1
    ensures [c + rt[0]] + rt[1..] == ([c + ra[0]] + ra[1..]) + rb
  {
    assert rt[0] == ra[0];
    assert rt[1..] == ra[1..] + rb;
  }

  /** How splitting sees the first character. */
  lemma SplitCons(c: char, t: string)
    ensures SplitOnComma([c] + t) ==
              if c == ',' then [[]] + SplitOnComma(t)
              else [[c] + SplitOnComma(t)[0]] + SplitOnComma(t)[1..]
  {
    assert ([c] + t)[0] == c && ([c] + t)[1..] == t;
  }
}

=== FILE: tabs.dfy ===
/**
 The browser tabs both settings pages tell about rule changes, as
 `chrome.tabs.query({})` reports them.
 */
module Tabs {
  import opened Wrappers
  import opened Strings

  /** A tab's id and its `url`, which may be absent. */
  datatype Tab = Tab(id: int, url: Option<string>)

  /** A browser-internal page no content script runs in. */
  predicate IsBrowserPage(url: string) {
    StartsWith(url, "chrome://") || StartsWith(url, "chrome-extension://")
  }
}

=== FILE: wrappers.dfy ===
/** Option and Result, the failure-carrying values used by the rest of the model. */
module Wrappers {

  /** A value that may be absent (JavaScript's `null`/`undefined`). */
  datatype Option<+T> = None | Some(value: T)

  /** Either a computed value or the reason it was refused. */
  datatype Result<+T, +E> = Success(value: T) | Failure(error: E)
}
